=== FILE: README.md ===
# ai-knowledge-base: document ingestion and retrieval, in Dafny

This project models the core of a retrieval-augmented question-answering service. The service is made of four parts:

- **Upload.** Users upload PDF, plain-text and Markdown files. The backend stores each file and records the document.
- **Indexing.** Afterwards the backend extracts the text, cuts it into overlapping chunks and stores every chunk twice: in a vector collection (with its embedding) and as a row of the chunk table.
- **Chat.** A chat question is embedded. The five most similar chunks become a numbered context for a completion prompt. The answer and its sources are saved in a conversation.
- **Client stores.** The web client keeps the document list and the chat transcript in two small stores.

Every collaborator becomes a parameter of the model, so the model stays pure:

- **Functions:**
  - `embed: string -> Option<Embedding>`: the OpenAI embedding call.
  - `query: (Embedding, nat) -> Option<QueryReply>`: the Chroma nearest-neighbour query.
  - `complete: string -> Completion`: the chat completion.
  - `Decoders(pdf, utf8)`: `pdf-parse` and UTF-8 decoding.

  `None` or `Threw` means the call threw.
- **State as values:**
  - The Chroma collection is a `map` from record id to record.
  - The Prisma tables and the upload directory are fields of a `Backend` or `ChatDb` value.
- **Write failures:** a write that can throw gets a boolean fault flag.
- **Generated values:** ids and timestamps the database or `uuid` would generate are arguments.

Modules, one per file:

| module | file | models |
|---|---|---|
| `Common` | common.dfy | `Option`, `Result`, and the exception kinds as an `Error` datatype |
| `Text` | text.dfy | JavaScript `trim()`, decimal rendering of indexes in template literals, `Array.prototype.join` |
| `Chunker` | chunker.dfy | `VectorService.chunkText` |
| `VectorStore` | vector_store.dfy | `createEmbedding`, `storeDocumentChunks`, `searchSimilarChunks`, `deleteDocumentChunks` |
| `Chat` | chat.dfy | `ChatService.processMessage` and its helpers |
| `Documents` | documents.dfy | `DocumentsService`: `findAll`, `findOne`, `uploadDocument`, `processDocumentAsync`, `extractTextFromFile`, `remove` |
| `Upload` | upload.dfy | the upload route of `DocumentsController`: file filter, size limit, missing-file guard |
| `ClientStore` | client_store.dfy | the two client stores of `frontend/lib/store.ts` |

### The chunker

`chunkText` is the one real algorithm. Its loop is modelled twice, and `Chunker.ChunkTextLoop` proves the two agree:

- as the recursive function `RawSpans` over the window start;
- as the loop itself.

A text is `seq<char>`. A window reaches at most `chunkSize` characters ahead. The branches are:

- **The window does not reach the end of the text.** Let `p` be the index of its last terminator (`.`, `!`, `?` or `。`), or -1 if it has none.
  - If `2 * p > |window|` (the source's `lastSentenceEnd > chunk.length * 0.5`), the chunk ends just after that terminator and the next window starts there.
  - Otherwise the chunk is the whole window and the next window starts `chunkSize - overlap` later.
- **The window reaches the end.** It is the last chunk.

Finally, blank chunks are filtered out.

The proofs cover:

- termination, when `overlap < chunkSize`;
- the shape of each cut;
- that every chunk is a non-blank slice of at most `chunkSize` characters;
- strictly increasing start offsets;
- coverage of every non-whitespace character;
- the short-text case.

## Model

| member | source | states |
|---|---|---|
| Text.TrimStartSpec | backend/src/vector/vector.service.ts:96 | `trim()` first drops leading whitespace: the result is a suffix, only whitespace was dropped, and it does not start with whitespace |
| Text.TrimEndSpec | backend/src/vector/vector.service.ts:96 | trailing whitespace is dropped the same way: the result is a prefix that does not end with whitespace |
| Text.LeadingWhitespace | backend/src/vector/vector.service.ts:96 | the number of leading whitespace characters: all before it are whitespace and the character at it is not |
| Text.Trim | backend/src/vector/vector.service.ts:96 | `trim()` is the contiguous slice of `s` after its leading whitespace; everything after the slice is whitespace, and a non-empty result ends with a non-whitespace character |
| Text.TrimEmptyIffBlank | backend/src/documents/documents.service.ts:127 | `s.trim()` is empty exactly when every character of `s` is whitespace (both directions), which is the test behind the chunk filter and the blank-text early exit |
| Text.NatToString | backend/src/vector/vector.service.ts:113 | `${i}` renders an index as a non-empty string of decimal digits |
| Text.ParseNatToString | backend/src/vector/vector.service.ts:113 | reading the rendered digits back gives the index (round trip) |
| Text.NatToStringInjective | backend/src/vector/vector.service.ts:113 | different indexes render differently |
| Text.JoinItemAt | backend/src/chat/chat.service.ts:79-81 | each item of `join` appears unchanged at its offset of the joined string |
| Text.JoinSeparatorAt | backend/src/chat/chat.service.ts:79-81 | between consecutive items of `join` stands exactly the separator |
| Text.JoinLength | backend/src/chat/chat.service.ts:79-81 | the joined string ends exactly with the last item: nothing trails it |
| Chunker.LastIndexOf | backend/src/vector/vector.service.ts:77-80 | `lastIndexOf`: -1 or an index holding the character, with no later occurrence |
| Chunker.LastSentenceEnd | backend/src/vector/vector.service.ts:76-81 | the maximum of the four `lastIndexOf` calls: the last terminator of the window, or -1 exactly when the window has none |
| Chunker.CutAt | backend/src/vector/vector.service.ts:71-92 | one loop pass: the chunk is a non-empty range of at most `chunkSize` characters from `start`; it is the last one exactly when the window reaches the end of the text, and then it runs to the end; otherwise the next start is strictly later (so the loop terminates) and not past the chunk's end |
| Chunker.RawSpans | backend/src/vector/vector.service.ts:70-94 | the windows the loop visits, from a start on: each a non-empty range of at most `chunkSize` characters inside the text, none starting before the given start |
| Chunker.ChunkText | backend/src/vector/vector.service.ts:66-97 | `chunkText`: every returned chunk passes the `trim().length > 0` filter, and a text that is not blank yields at least one chunk |
| Chunker.NextChunk | backend/src/vector/vector.service.ts:71-93 | the loop body as written (slicing the window, `lastIndexOf`, the midpoint test) pushes the slice of the cut, moves to its next start and breaks exactly on the last cut |
| Chunker.ChunkTextLoop | backend/src/vector/vector.service.ts:66-97 | the `while` loop with `break` and the final filter returns exactly `ChunkText`, the recursive definition |
| Chunker.LastTerminatorPastMiddle | backend/src/vector/vector.service.ts:76-83 | when some terminator of a full window lies past its middle, the maximum of the `lastIndexOf` calls does too, so the midpoint test passes |
| Chunker.AfterLastTerminator | backend/src/vector/vector.service.ts:76-81 | no character of the window after the index the `lastIndexOf` calls return is a terminator |
| Chunker.SentenceCutShape | backend/src/vector/vector.service.ts:75-85 | when the window has a terminator past its middle, the chunk ends with the window's last terminator and the next window starts right after it (no overlap) |
| Chunker.HardCutShape | backend/src/vector/vector.service.ts:86-89 | when it has none, the chunk is the full window of `chunkSize` characters and the next window starts `chunkSize - overlap` later, so the two share `overlap` characters |
| Chunker.CutShape | backend/src/vector/vector.service.ts:75-89 | every cut that is not the last one is a sentence cut or a hard cut, chosen by whether the window has a terminator past its middle |
| Chunker.RawSpansCuts | backend/src/vector/vector.service.ts:70-94 | the window sequence starts at the start, is empty only for empty input, every consecutive pair is a sentence cut or a hard cut, and the last window runs to the end of the text from a window that reaches it |
| Chunker.RawSpansOrdered | backend/src/vector/vector.service.ts:70-94 | window starts strictly increase |
| Chunker.RawSpansCover | backend/src/vector/vector.service.ts:70-94 | every character from the start on lies in some window: consecutive windows are adjacent or overlap |
| Chunker.KeepNonBlankSlices | backend/src/vector/vector.service.ts:96 | filtering the chunks by `trim().length > 0` is the same as slicing the windows whose slice is not blank |
| Chunker.KeepNonBlank | backend/src/vector/vector.service.ts:96 | `filter(chunk => chunk.trim().length > 0)`: a string is kept exactly when it is one of the chunks and not blank, and nothing is added |
| Chunker.KeepNonBlankNotBlank | backend/src/vector/vector.service.ts:96 | the filter keeps no blank chunk |
| Chunker.KeptSpansNotBlank | backend/src/vector/vector.service.ts:96 | every kept chunk has a non-whitespace character |
| Chunker.KeptSpansBounded | backend/src/vector/vector.service.ts:96 | the filter keeps the 1..`chunkSize` length bound |
| Chunker.KeptSpansOrdered | backend/src/vector/vector.service.ts:96 | the filter keeps text order |
| Chunker.KeptSpansCover | backend/src/vector/vector.service.ts:96 | a window holding a non-whitespace character survives the filter |
| Chunker.ChunkTextSlices | backend/src/vector/vector.service.ts:70-96 | every returned chunk is the contiguous slice `text[s..e]` of its span, with `0 < e - s <= chunkSize`, and is not blank |
| Chunker.ChunkTextOrdered | backend/src/vector/vector.service.ts:70-96 | returned chunks start at strictly increasing offsets: output follows text order |
| Chunker.ChunkTextCovers | backend/src/vector/vector.service.ts:70-96 | every non-whitespace character of the text lies in some returned chunk |
| Chunker.KeptChunksExist | backend/src/vector/vector.service.ts:70-96 | a text with a non-whitespace character keeps at least one chunk after the filter |
| Chunker.ShortText | backend/src/vector/vector.service.ts:70-96 | a text of at most `chunkSize` characters yields `[text]`, untrimmed, unless it is blank (the empty text included), which yields `[]` |
| Chunker.SentenceBoundaryExample | backend/src/vector/vector.service.ts:75-85 | `"A. B. C."` with window 5 and overlap 1 is cut after the second full stop: `["A. B.", " C."]` |
| VectorStore.ChunkIdInjective | backend/src/vector/vector.service.ts:113 | `${documentId}_chunk_${i}` names one (document, index) pair: equal ids mean equal documents and indexes |
| VectorStore.ChunkIdParts | backend/src/vector/vector.service.ts:113 | `${documentId}_chunk_${i}`: the id starts with the document id, then `_chunk_`, then decimal digits that read back as the index |
| VectorStore.CreateEmbedding | backend/src/vector/vector.service.ts:49-61 | the embedding of the text, or "Failed to create text embedding" exactly when the embedding call throws |
| VectorStore.EmbedAll | backend/src/vector/vector.service.ts:112-116 | embeddings for all chunks, in order, exactly when no call throws |
| VectorStore.Batch | backend/src/vector/vector.service.ts:112-124 | the parallel arrays keyed by id: exactly the ids `<doc>_chunk_0 .. <doc>_chunk_(n-1)`, and id `i` holds chunk `i`'s embedding, `{documentId, chunkIndex: i, length}` and text |
| VectorStore.ChunkIdsDistinct | backend/src/vector/vector.service.ts:113 | the ids of one document's chunks are pairwise distinct, so no chunk overwrites another in the batch |
| VectorStore.Add | backend/src/vector/vector.service.ts:126-131 | `collection.add`: the keys become the union; records already present stay, new ids hold the batch's records |
| VectorStore.StoreDocumentChunks | backend/src/vector/vector.service.ts:102-138 | fails with "Failed to store document in vector database" exactly when some embedding throws or the `add` throws; otherwise the collection gains exactly the chunk ids |
| VectorStore.StoredRecords | backend/src/vector/vector.service.ts:112-131 | after a store, earlier records are unchanged and every fresh id `i` holds chunk `i` with its metadata and embedding |
| VectorStore.StorePreservesIds | backend/src/vector/vector.service.ts:113-122 | storing keeps the invariant that each record's id is the one its metadata spells out |
| VectorStore.MapHits | backend/src/vector/vector.service.ts:165-174 | one chunk per hit, in the reply's order: chunk `i` has the id `<documentId>_chunk_<chunkIndex>` rebuilt from hit `i`'s metadata, its text, document and index, and `similarity = 1 - distance` |
| VectorStore.SearchSimilarChunks | backend/src/vector/vector.service.ts:143-181 | fails with "Failed to search in vector database" exactly when the embedding or the query throws; a reply without documents gives `[]`; a reply with hits gives exactly the hits mapped to chunks, one per hit in the reply's order |
| VectorStore.MapHitsFoundIn | backend/src/vector/vector.service.ts:160-176 | over a well-formed collection, chunk `i` is hit `i`: the id rebuilt from metadata is the hit's stored id, its content is the hit's text and its similarity is `1 - distance`; the chunks are stored records with their document and index, at most `topK`, similarity in [-1, 1] and non-increasing |
| VectorStore.SearchFindsStoredChunks | backend/src/vector/vector.service.ts:143-181 | every chunk a search returns is a stored record under its own id, at most `topK` of them, most similar first |
| VectorStore.StoreThenSearch | backend/src/vector/vector.service.ts:168 | round trip: a chunk found under the id of stored chunk `i` has chunk `i`'s text, index and document |
| VectorStore.MatchingIds | backend/src/vector/vector.service.ts:189-191 | `get({where: {documentId}})` returns exactly the ids whose metadata names the document |
| VectorStore.DeleteDocumentChunks | backend/src/vector/vector.service.ts:186-204 | fails with "Failed to delete document from vector database" exactly when the `get` throws or there is something to delete and the `delete` throws; otherwise exactly the other documents' records remain, unchanged |
| VectorStore.DeletePreservesIds | backend/src/vector/vector.service.ts:193-196 | deleting keeps the id/metadata invariant |
| VectorStore.SearchAfterDelete | backend/src/vector/vector.service.ts:186-204 | after a document's chunks are deleted, no search returns a chunk of it |
| VectorStore.StoreThenDelete | backend/src/vector/vector.service.ts:189-196 | storing a new document's chunks then deleting that document gives back the original collection |
| Chat.BuildContext | backend/src/chat/chat.service.ts:78-82 | no chunks give the empty context |
| Chat.ContextLayout | backend/src/chat/chat.service.ts:78-82 | the context holds, for chunk `i` in order, the label `[文档片段 n]` whose number reads back as `i + 1`, a newline and the content verbatim, then `"\n\n"` before the next label |
| Chat.BuildPrompt | backend/src/chat/chat.service.ts:87-115 | the prompt contains the context and then, after it, the question, both verbatim at fixed offsets |
| Chat.GenerateAIResponse | backend/src/chat/chat.service.ts:120-144 | fails with "Failed to generate AI response" exactly when the call throws; the answer is never empty; it is the fallback exactly when the content is missing or empty (or is the fallback itself), and otherwise it is the content |
| Chat.SaveConversation | backend/src/chat/chat.service.ts:149-202 | with every write succeeding: reuses a truthy id that is found, else the new conversation; appends the user message then the assistant message with the sources projected in order; when a write throws, reports the given id or `temp-conversation`; never fails, only ever adds rows, at most two messages |
| Chat.Project | backend/src/chat/chat.service.ts:187-192 | the sources stored with the answer: one per chunk, in order, each the chunk's id, document, index and similarity |
| Chat.SavePreservesConversations | backend/src/chat/chat.service.ts:172-194 | every message saved belongs to an existing conversation, also when a write throws midway |
| Chat.ProcessMessage | backend/src/chat/chat.service.ts:28-73 | the request fails exactly when the search fails or, with chunks found, the completion throws; the failure is the one bad request "Failed to process your message. Please try again." with nothing saved, and a failing save never fails it; empty sources come only with the fixed apology, the caller's id echoed and nothing saved; the answer is never empty |
| Chat.EmptyRetrievalSkipsGeneration | backend/src/chat/chat.service.ts:36-42 | with nothing retrieved, the result does not depend on the completion, the database faults or the new id: the apology with `sources = []` and the request's id, nothing saved |
| Chat.AnsweredFromRetrieval | backend/src/chat/chat.service.ts:34-68 | with chunks retrieved (topK 5) and the completion answering, under any database faults, the reply is the completion's answer with exactly the retrieved chunks as sources and the conversation id saving returned, the fallback included (chat.service.ts:197-201); when no write throws, that id is the reused or the new one and two messages are added |
| Chat.ProcessPreservesConversations | backend/src/chat/chat.service.ts:28-73 | answering keeps every message attached to an existing conversation |
| Documents.ExtractText | backend/src/documents/documents.service.ts:160-175 | an unreadable file fails first; PDF goes to the parser, fails exactly when it throws and otherwise returns the parser's text; text and Markdown are UTF-8 decoded; any other type is "Unsupported file type: <type>"; success only for the three types |
| Documents.ProcessDocument | backend/src/documents/documents.service.ts:122-155 | never touches documents or files; an extraction error or blank text changes nothing; indexing succeeds exactly when the text is not blank, the vector store accepts the chunks of `chunkText(text, 1000, 200)` and the row insert does not throw, and then the rows are those chunks' rows appended and the vectors are the ones stored; a failing vector store changes nothing; a failing row insert keeps the stored vectors and writes no rows |
| Documents.ChunkRows | backend/src/documents/documents.service.ts:139-145 | one row per chunk: row `i` names the document, has `chunkIndex` `i` (contiguous from 0), the chunk as content and its length as `metadata.length` |
| Documents.BlankTextSkipsIndexing | backend/src/documents/documents.service.ts:127-130 | the early exit happens exactly when `text.trim()` is empty |
| Documents.StoreFailureWritesNothing | backend/src/documents/documents.service.ts:133-149 | the vector write comes first: whenever it throws (an embedding or the `add`), the backend is unchanged and nothing is indexed |
| Documents.ChunkRowsMatchVectors | backend/src/documents/documents.service.ts:139-145 | row `i` has `chunkIndex` `i`, the chunk as content and its length, and the vector record under `<doc>_chunk_<i>` holds the same text and metadata |
| Documents.IndexedRowsMatchVectors | backend/src/documents/documents.service.ts:122-155 | indexing text that is not blank with every call succeeding gives at least one chunk, appends exactly that many rows, and each agrees with its stored vector |
| Documents.UploadDocument | backend/src/documents/documents.service.ts:75-117 | fails with "Failed to upload document" exactly when the file write or the row insert throws, leaving the document table unchanged (a failed write changes nothing at all); otherwise the file holds the uploaded bytes, the row copies the upload's name, type and size, and the reply shows that row; exactly one file path and, on success, exactly one document id are added, every other file and row is unchanged, and chunks and vectors are untouched |
| Documents.UploadThenExtract | backend/src/documents/documents.service.ts:83 | the indexing after an upload reads exactly the uploaded bytes |
| Documents.RowsSplit | backend/src/documents/documents.service.ts:59-63 | splitting the chunk table by document sorts each row to exactly one side and loses none |
| Documents.RowsOfAppend | backend/src/documents/documents.service.ts:147-149 | appending rows adds each document's rows to its own count, in order |
| Documents.RowsOfOneDocument | backend/src/documents/documents.service.ts:139-145 | rows that all name one document count for it and for no other |
| Documents.FindOne | backend/src/documents/documents.service.ts:59-70 | not found, with "Document with ID <id> not found", exactly when the id has no row; otherwise the row and exactly its chunk rows |
| Documents.FindAll | backend/src/documents/documents.service.ts:35-54 | given the table's documents each listed once (in the database's order), one entry per document in that order: its fields copied and `chunkCount` the number of its chunk rows |
| Documents.FiveChunksListed | backend/src/documents/documents.service.spec.ts:50-62 | a table holding one document with five chunk rows lists exactly that document with `chunkCount` 5 |
| Documents.AppendedRowsCounted | backend/src/documents/documents.service.ts:139-149 | inserting a document's chunk rows adds one row per chunk to that document's count and nothing to any other's |
| Documents.IndexedCountListed | backend/src/documents/documents.service.ts:139-149 | after indexing into `n` chunks, the document's chunk count grows by `n` and no other document's count changes |
| Documents.Remove | backend/src/documents/documents.service.ts:180-206 | an unknown id is not found and nothing changes; for a known id the removal fails exactly when the vector delete or the row delete throws, always with "Failed to delete document", and a failing row delete keeps the vectors already deleted and changes nothing else; success removes the row, all its chunk rows and all its vectors, and keeps every other document's row and every other document's vector record unchanged; no file is ever added, and every file other than the document's own is kept |
| Documents.RemoveVectorFailureKeepsAll | backend/src/documents/documents.service.ts:183-190 | the vector delete comes first: whenever it throws (the lookup, or the delete with records present), the document, its rows, vectors and file all remain |
| Documents.RemoveToleratesUnlink | backend/src/documents/documents.service.ts:192-201 | a failing file delete still reports success; otherwise the file is gone |
| Documents.RemoveLeavesNothing | backend/src/documents/documents.service.ts:180-206 | after a removal no chunk row and no search result names the document, and other documents' rows are unchanged |
| Documents.RowsOfNotOf | backend/src/documents/documents.service.ts:187-190 | the cascade keeps every other document's rows, in order, and none of the removed one's |
| Upload.FileFilter | backend/src/documents/documents.controller.ts:39-56 | accepts exactly `application/pdf`, `text/plain` and `text/markdown`; rejects anything else with "Invalid file type. Only PDF, TXT, and MD files are allowed." and `accept = false` |
| Upload.ReceiveUpload | backend/src/documents/documents.controller.ts:39-59 | no file part: "No file uploaded"; a wrong type: the filter's error; above 10 MiB: too large; passes the file unchanged exactly when its type is allowed and its size at most 10 MiB |
| Upload.HandleUpload | backend/src/documents/documents.controller.ts:82-88 | a request refused by the guards never reaches the service and changes nothing; a request that passes them is exactly `uploadDocument` of the received file; a success implies an allowed type within the limit |
| Upload.FilterAgreesWithExtractor | backend/src/documents/documents.controller.ts:40-46 | the filter accepts a type exactly when `extractTextFromFile` has a case for it |
| Upload.AcceptedUploadIsExtractable | backend/src/documents/documents.controller.ts:40-46 | an accepted upload never reaches the unsupported-type branch; a text upload decodes to its bytes' UTF-8 text |
| ClientStore.SetDocuments | frontend/lib/store.ts:26 | replaces the list and keeps the loading flag |
| ClientStore.AddDocument | frontend/lib/store.ts:27-29 | appends at the end; earlier documents keep their places; the flag is untouched |
| ClientStore.WithoutIdMembers | frontend/lib/store.ts:31 | the filter keeps exactly the documents with another id |
| ClientStore.WithoutId | frontend/lib/store.ts:31 | `filter(doc => doc.id !== id)`: no kept document has the id, and none is invented |
| ClientStore.RemoveDocument | frontend/lib/store.ts:30-32 | afterwards exactly the documents with another id are listed; the flag is untouched |
| ClientStore.SetLoading | frontend/lib/store.ts:33 | only the loading flag changes |
| ClientStore.WithoutIdAppend | frontend/lib/store.ts:31 | the filter works piecewise, so kept documents stay in relative order |
| ClientStore.WithoutAbsentId | frontend/lib/store.ts:31 | filtering an id nobody has changes nothing |
| ClientStore.RemoveIdempotent | frontend/lib/store.ts:30-32 | removing twice is removing once |
| ClientStore.RemoveAbsent | frontend/lib/store.ts:30-32 | removing an absent id leaves the store as it was |
| ClientStore.AddThenRemove | frontend/lib/store.ts:27-32 | adding a document with a fresh id and then removing that id restores the store |
| ClientStore.AddMessage | frontend/lib/store.ts:39-41 | appends at the end; earlier messages keep their places |
| ClientStore.SetMessages | frontend/lib/store.ts:42 | replaces the transcript and keeps the flag |
| ClientStore.SetChatLoading | frontend/lib/store.ts:43 | only the loading flag changes |
| ClientStore.ClearMessages | frontend/lib/store.ts:44 | the transcript becomes empty; the flag is kept |
| ClientStore.ReplayMessages | frontend/lib/store.ts:39-44 | clearing and then adding messages one by one gives the same store as setting them at once |

A short text is returned untrimmed: within `chunkText`, `trim()` is used only by the filter (`Chunker.ShortText`).

## Left out

- I/O and services (OpenAI, ChromaDB, Prisma, `fs`, `pdf-parse`, `uuid`): function parameters and fault flags stand in for them. Their internals, and the error text they throw, are not modelled; such a failure is the `Upstream` error.
- Concurrency: `processDocumentAsync` is started without being awaited. The model runs it as a separate step after the upload (`Documents.ProcessDocument`). The `get` followed by `delete` in `deleteDocumentChunks` is taken as atomic.
- Floating point: embeddings, distances and similarities are `real`, without rounding.
- String encoding: JavaScript strings are UTF-16. The model's strings are sequences of Unicode scalar values, so lengths and slice offsets match the source only for text inside the Basic Multilingual Plane.
- VectorStore.Add: Chroma's `add` with an id that is already present is assumed to keep the existing record.
- VectorStore.QueriesOver: a Chroma query is assumed to answer only with records of the collection, with at most `n` distinct hits ordered by cosine distance in [0, 2]. The search lemmas take this as a premise.
- Documents.FindAll: the database lists every document once, newest upload first, and counts the rows itself. The model takes that listing as the parameter `listed` and requires it to name each document of the table exactly once. The ordering by upload time is not modelled.
- The chunk table's `embedding` column is always written as `[]` and is left out.
- Documents.UploadDocument: the stored name (`uuid` plus `path.extname`), the path and the upload time are given in `NewDocument` rather than computed.
- Chunker.ChunkText: requires `overlap < chunkSize`, which the source does not check. The callers use only 1000 and 200. Otherwise the first hard cut (a window that stops short of the end and has no terminator past its middle) moves the start by `chunkSize - overlap <= 0`, so from there the loop stalls or runs backwards. Inputs that never take a hard cut still end: a text no longer than one window, or one where every full window has a terminator past its middle. The model does not cover those inputs. Negative arguments are out of scope because sizes are `nat`.
- `initializeCollection`, `ensureUploadDir`, `getConversation` and `getConversations` (database ordering) are not part of this model.
- The controllers' pass-through routes, the DTOs, the front-end pages and components, and the HTTP client are not part of this model.
- Chat.BuildPrompt: the fixed instruction text is kept verbatim as constants. Only the positions of the context and the question are stated.

=== FILE: chat.dfy ===
/** The chat service: answering a question from the chunks most similar to it
    (`ChatService.processMessage`) and recording the exchange (`saveConversation`).

    The vector search, the chat completion and the conversation tables are the
    collaborators. The search is `VectorStore.SearchSimilarChunks` over the given
    embedding and query functions; the completion is a function from the prompt to its
    reply; the tables are a value of `ChatDb`, and each write that can fail has a flag.
 */
module Chat {
  import opened Common
  import opened Text
  import opened VectorStore

  /** The answer when the search finds nothing. */
  const NoResultsAnswer := "抱歉，我在您上传的文档中没有找到相关信息。请确保您已经上传了相关文档，或者尝试用不同的方式描述您的问题。"
  /** The answer when the completion has no text. */
  const FallbackAnswer := "抱歉，我无法生成回答。"
  const GenerateFailed := "Failed to generate AI response"
  const ProcessFailed := "Failed to process your message. Please try again."
  /** The conversation id reported when saving fails and the request carried none. */
  const TempConversation := "temp-conversation"
  /** How many chunks a question retrieves. */
  const RetrievalSize: nat := 5

  /** The fixed parts of the prompt around the context and the question. */
  const PromptIntro := "你是一个专业的AI助手，专门帮助用户基于他们上传的文档内容回答问题。\n\n**角色定义**:\n- 你是一个知识渊博、准确可靠的AI文档助手\n- 你只基于提供的文档内容回答问题，不添加额外信息\n- 你会以清晰、专业且有帮助的方式回答问题\n\n**回答指令**:\n1. 仔细阅读提供的文档片段\n2. 只基于这些文档内容回答用户问题\n3. 如果文档中没有相关信息，明确说明\n4. 回答要准确、简洁且有用\n5. 使用 Markdown 格式让回答更易读\n6. 必要时引用具体的文档片段\n\n**文档内容**:\n"
  const PromptMiddle := "\n\n**用户问题**: "
  const PromptTail := "\n\n**回答要求**:\n- 用中文回答\n- 基于文档内容进行回答\n- 结构清晰，使用适当的标题和列表\n- 如果涉及多个方面，请分点说明\n\n请基于上述文档内容回答用户的问题："

  /** The label in front of each chunk of the context. */
  const LabelOpen := "[文档片段 "
  const LabelClose := "]\n"
  const ContextSeparator := "\n\n"

  datatype ChatRequest = ChatRequest(message: string, conversationId: Option<string>)
  datatype ChatResponse = ChatResponse(answer: string, sources: seq<DocumentChunk>, conversationId: Option<string>)

  /** A `conversationId` is used only when it is truthy: present and not the empty string. */
  predicate Truthy(id: Option<string>) {
    id.Some? && id.value != ""
  }

  // ----- context and prompt -----

  /** The text for the chunk at position `index`: a 1-based label, a newline, the content. */
  function Label(index: nat, content: string): string {
    LabelOpen + NatToString(index + 1) + LabelClose + content
  }

  function Labelled(chunks: seq<DocumentChunk>): (items: seq<string>)
    ensures |items| == |chunks|
  {
    seq(|chunks|, i requires 0 <= i < |chunks| => Label(i, chunks[i].content))
  }

  /** `buildContext`: the labelled chunks joined by a blank line. */
  function BuildContext(chunks: seq<DocumentChunk>): (context: string)
    ensures |chunks| == 0 ==> context == ""
  {
    Join(Labelled(chunks), ContextSeparator)
  }

  /** Where the text of chunk `i` starts inside the context. */
  function ContextOffset(chunks: seq<DocumentChunk>, i: nat): nat
    requires i <= |chunks|
  {
    JoinOffset(Labelled(chunks), ContextSeparator, i)
  }

  /** The context holds, for each chunk in order, the label `[文档片段 n]` whose number
      reads back as the chunk's 1-based position, then the chunk's content verbatim,
      then a blank line before the next chunk's label. */
  lemma ContextLayout(chunks: seq<DocumentChunk>, i: nat)
    requires i < |chunks|
    ensures ParseDigits(NatToString(i + 1)) == i + 1
    ensures ContextOffset(chunks, i) + |Label(i, chunks[i].content)| <= |BuildContext(chunks)|
    ensures BuildContext(chunks)[ContextOffset(chunks, i)..ContextOffset(chunks, i) + |Label(i, chunks[i].content)|]
            == LabelOpen + NatToString(i + 1) + LabelClose + chunks[i].content
    ensures i + 1 < |chunks| ==>
              && ContextOffset(chunks, i) + |Label(i, chunks[i].content)| + |ContextSeparator| == ContextOffset(chunks, i + 1)
              && ContextOffset(chunks, i + 1) <= |BuildContext(chunks)|
              && BuildContext(chunks)[ContextOffset(chunks, i) + |Label(i, chunks[i].content)|..ContextOffset(chunks, i + 1)] == ContextSeparator
  {
    ParseNatToString(i + 1);
    JoinItemAt(Labelled(chunks), ContextSeparator, i);
    if i + 1 < |chunks| {
      JoinSeparatorAt(Labelled(chunks), ContextSeparator, i);
    }
  }

  /** `buildPrompt`: the fixed instructions, the context, the question, the closing request. */
  function BuildPrompt(question: string, context: string): (prompt: string)
    ensures |prompt| == |PromptIntro| + |context| + |PromptMiddle| + |question| + |PromptTail|
    ensures prompt[|PromptIntro|..|PromptIntro| + |context|] == context
    ensures prompt[|PromptIntro| + |context| + |PromptMiddle|..|PromptIntro| + |context| + |PromptMiddle| + |question|] == question
  {
    PromptIntro + context + PromptMiddle + question + PromptTail
  }

  // ----- generation -----

  /** What the completion call gives back: it threw, or the first choice's message
      content, which may be missing. */
  datatype Completion = Threw | Replied(content: Option<string>)

  /** `generateAIResponse`: the completion's text, or the fallback answer when that text
      is missing or empty; a throwing call is reported as the generation error. */
  function GenerateAIResponse(complete: string -> Completion, prompt: string): (r: Result<string>)
    ensures r.Err? <==> complete(prompt).Threw?
    ensures r.Err? ==> r.error == Plain(GenerateFailed)
    ensures r.Ok? ==> r.value != ""
    ensures r.Ok? ==> (r.value == FallbackAnswer <==>
                        complete(prompt).content.None? || complete(prompt).content.value in {"", FallbackAnswer})
    ensures r.Ok? && r.value != FallbackAnswer ==> complete(prompt).content == Some(r.value)
  {
    match complete(prompt)
    case Threw => Err(Plain(GenerateFailed))
    case Replied(Some(text)) => if text != "" then Ok(text) else Ok(FallbackAnswer)
    case Replied(None) => Ok(FallbackAnswer)
  }

  // ----- conversations -----

  datatype Role = User | Assistant

  /** A source as the assistant message stores it: the chunk without its content. */
  datatype SourceRef = SourceRef(id: string, documentId: string, chunkIndex: nat, similarity: real)

  datatype ChatMessage = ChatMessage(conversationId: string, role: Role, content: string, sources: seq<SourceRef>)

  /** The conversation and message tables. */
  datatype ChatDb = ChatDb(conversations: set<string>, messages: seq<ChatMessage>)

  /** Which of the table operations `saveConversation` issues throw. */
  datatype DbFaults = DbFaults(findFails: bool, createFails: bool, userInsertFails: bool, assistantInsertFails: bool)

  const NoFaults := DbFaults(false, false, false, false)

  function ToSource(c: DocumentChunk): SourceRef {
    SourceRef(c.id, c.documentId, c.chunkIndex, c.similarity)
  }

  /** The sources stored with the answer: the chunks in order, content dropped. */
  function Project(chunks: seq<DocumentChunk>): (refs: seq<SourceRef>)
    ensures |refs| == |chunks|
    ensures forall i :: 0 <= i < |chunks| ==>
              refs[i] == SourceRef(chunks[i].id, chunks[i].documentId, chunks[i].chunkIndex, chunks[i].similarity)
  {
    seq(|chunks|, i requires 0 <= i < |chunks| => ToSource(chunks[i]))
  }

  /** Every message belongs to a conversation that exists. */
  ghost predicate MessagesHaveConversations(db: ChatDb) {
    forall i :: 0 <= i < |db.messages| ==> db.messages[i].conversationId in db.conversations
  }

  /** The request names an existing conversation, which is then reused. */
  predicate Reuses(db: ChatDb, conversationId: Option<string>) {
    Truthy(conversationId) && conversationId.value in db.conversations
  }

  /** No operation `saveConversation` actually issues throws. */
  predicate SaveSucceeds(db: ChatDb, conversationId: Option<string>, f: DbFaults) {
    && !(Truthy(conversationId) && f.findFails)
    && (Reuses(db, conversationId) || !f.createFails)
    && !f.userInsertFails
    && !f.assistantInsertFails
  }

  /** The id `saveConversation` falls back to when a write throws. */
  function FallbackId(conversationId: Option<string>): string {
    if Truthy(conversationId) then conversationId.value else TempConversation
  }

  datatype Saved = Saved(db: ChatDb, conversationId: string)

  /** `saveConversation`: find the conversation when an id was given, create one when it
      was not found, then append the question and the answer with its sources. A
      throwing operation stops the rest and the id falls back; writes done before it
      stay. It never fails. `newId` is the id the database gives a new conversation. */
  function SaveConversation(db: ChatDb, f: DbFaults, newId: string, conversationId: Option<string>,
                            question: string, answer: string, sources: seq<DocumentChunk>): (r: Saved)
    ensures SaveSucceeds(db, conversationId, f) ==>
              && r.conversationId == (if Reuses(db, conversationId) then conversationId.value else newId)
              && r.db.conversations == db.conversations + {r.conversationId}
              && r.db.messages == db.messages + [ChatMessage(r.conversationId, User, question, []),
                                                 ChatMessage(r.conversationId, Assistant, answer, Project(sources))]
    ensures !SaveSucceeds(db, conversationId, f) ==> r.conversationId == FallbackId(conversationId)
    ensures db.conversations <= r.db.conversations && db.messages <= r.db.messages
    ensures |r.db.messages| <= |db.messages| + 2
  {
    if Truthy(conversationId) && f.findFails then Saved(db, FallbackId(conversationId))
    else if !Reuses(db, conversationId) && f.createFails then Saved(db, FallbackId(conversationId))
    else
      var id := if Reuses(db, conversationId) then conversationId.value else newId;
      var db1 := db.(conversations := db.conversations + {id});
      if f.userInsertFails then Saved(db1, FallbackId(conversationId))
      else
        var db2 := db1.(messages := db1.messages + [ChatMessage(id, User, question, [])]);
        if f.assistantInsertFails then Saved(db2, FallbackId(conversationId))
        else Saved(db2.(messages := db2.messages + [ChatMessage(id, Assistant, answer, Project(sources))]), id)
  }

  /** Saving never leaves a message without its conversation. */
  lemma SavePreservesConversations(db: ChatDb, f: DbFaults, newId: string, conversationId: Option<string>,
                                   question: string, answer: string, sources: seq<DocumentChunk>)
    requires MessagesHaveConversations(db)
    ensures MessagesHaveConversations(SaveConversation(db, f, newId, conversationId, question, answer, sources).db)
  {
  }

  // ----- answering -----

  /** Everything `processMessage` talks to. */
  datatype Services = Services(
    embed: string -> Option<Embedding>,
    query: (Embedding, nat) -> Option<QueryReply>,
    complete: string -> Completion)

  datatype Answered = Answered(response: Result<ChatResponse>, db: ChatDb)

  /** The chunks retrieved for the question of a request. */
  function Retrieved(s: Services, request: ChatRequest): Result<seq<DocumentChunk>> {
    SearchSimilarChunks(s.embed, s.query, request.message, RetrievalSize)
  }

  /** The prompt asked for a request once `chunks` were retrieved. */
  function PromptFor(request: ChatRequest, chunks: seq<DocumentChunk>): string {
    BuildPrompt(request.message, BuildContext(chunks))
  }

  /** `processMessage`: retrieve the five most similar chunks; with none, answer that
      nothing was found; otherwise ask the completion with the chunks as context, save
      the exchange and answer with the chunks as sources. A failing search or
      generation is reported as one bad request, with nothing saved; a failing save is
      caught inside `saveConversation` and does not fail the request. */
  function ProcessMessage(s: Services, db: ChatDb, f: DbFaults, newId: string, request: ChatRequest): (r: Answered)
    ensures r.response.Err? <==> Retrieved(s, request).Err?
                                 || (|Retrieved(s, request).value| > 0
                                     && s.complete(PromptFor(request, Retrieved(s, request).value)).Threw?)
    ensures r.response.Err? ==> r.response.error == BadRequest(ProcessFailed) && r.db == db
    ensures r.response.Ok? && r.response.value.sources == [] ==>
              r.response.value == ChatResponse(NoResultsAnswer, [], request.conversationId) && r.db == db
    ensures r.response.Ok? ==> r.response.value.answer != ""
  {
    match Retrieved(s, request)
    case Err(_) => Answered(Err(BadRequest(ProcessFailed)), db)
    case Ok(chunks) =>
      if |chunks| == 0 then Answered(Ok(ChatResponse(NoResultsAnswer, [], request.conversationId)), db)
      else
        var prompt := PromptFor(request, chunks);
        match GenerateAIResponse(s.complete, prompt)
        case Err(_) => Answered(Err(BadRequest(ProcessFailed)), db)
        case Ok(answer) =>
          var saved := SaveConversation(db, f, newId, request.conversationId, request.message, answer, chunks);
          Answered(Ok(ChatResponse(answer, chunks, Some(saved.conversationId))), saved.db)
  }

  /** When the search finds nothing, the completion and the tables are never used: any
      completion and any faults give the same answer, and the request's id comes back. */
  lemma EmptyRetrievalSkipsGeneration(s: Services, complete: string -> Completion, db: ChatDb,
                                      f: DbFaults, g: DbFaults, newId: string, otherId: string, request: ChatRequest)
    requires Retrieved(s, request) == Ok([])
    ensures ProcessMessage(s, db, f, newId, request)
            == ProcessMessage(s.(complete := complete), db, g, otherId, request)
            == Answered(Ok(ChatResponse(NoResultsAnswer, [], request.conversationId)), db)
  {
  }

  /** With chunks found and the completion answering, the request succeeds whatever the
      tables do. The sources are exactly the chunks retrieved for the question, the
      answer is the completion's for the prompt built from them, and the conversation
      reported back is the one saving gave, the fallback id included. When no write
      throws, that is the reused or the new conversation, holding two more messages. */
  lemma AnsweredFromRetrieval(s: Services, db: ChatDb, f: DbFaults, newId: string, request: ChatRequest)
    requires Retrieved(s, request).Ok? && |Retrieved(s, request).value| > 0
    requires !s.complete(PromptFor(request, Retrieved(s, request).value)).Threw?
    ensures var chunks := Retrieved(s, request).value;
            var answer := GenerateAIResponse(s.complete, PromptFor(request, chunks)).value;
            var saved := SaveConversation(db, f, newId, request.conversationId, request.message, answer, chunks);
            && ProcessMessage(s, db, f, newId, request) == Answered(Ok(ChatResponse(answer, chunks, Some(saved.conversationId))), saved.db)
            && (SaveSucceeds(db, request.conversationId, f) ==>
                  && saved.conversationId == (if Reuses(db, request.conversationId) then request.conversationId.value else newId)
                  && |saved.db.messages| == |db.messages| + 2)
  {
  }

  /** Answering keeps every message attached to an existing conversation. */
  lemma ProcessPreservesConversations(s: Services, db: ChatDb, f: DbFaults, newId: string, request: ChatRequest)
    requires MessagesHaveConversations(db)
    ensures MessagesHaveConversations(ProcessMessage(s, db, f, newId, request).db)
  {
    var found := Retrieved(s, request);
    if found.Ok? && |found.value| > 0 {
      var prompt := PromptFor(request, found.value);
      var gen := GenerateAIResponse(s.complete, prompt);
      if gen.Ok? {
        SavePreservesConversations(db, f, newId, request.conversationId, request.message, gen.value, found.value);
      }
    }
  }
}

=== FILE: chunker.dfy ===
/** The text chunker of the vector service (`VectorService.chunkText`).

    A window of `chunkSize` characters slides over the text. When the window does not
    reach the end of the text and its last sentence terminator (`.`, `!`, `?` or the
    full-width `。`) lies past the window's midpoint, the chunk is cut just after that
    terminator and the next window starts right behind it. Otherwise the whole window
    is the chunk and the next window starts `chunkSize - overlap` characters further,
    so the two windows share `overlap` characters. A window that reaches the end of the
    text is the last chunk. Chunks whose `trim()` is empty are dropped at the end.

    `RawSpans` is the loop as a recursive function over the window start;
    `ChunkTextLoop` is the loop as the source writes it, proved equal to it.
 */
module Chunker {
  import opened Common
  import opened Text

  /** The default arguments of `chunkText`, used by document ingestion. */
  const DefaultChunkSize: nat := 1000
  const DefaultOverlap: nat := 200

  predicate IsSentenceEnd(c: char) {
    c == '.' || c == '!' || c == '?' || c == '。'
  }

  /** `s.lastIndexOf(c)`: the index of the last occurrence of `c`, or -1 when there is none. */
  function LastIndexOf(s: string, c: char): (r: int)
    ensures -1 <= r < |s|
    ensures r >= 0 ==> s[r] == c
    ensures forall k :: r < k < |s| ==> s[k] != c
  {
    if |s| == 0 then -1
    else if s[|s| - 1] == c then |s| - 1
    else LastIndexOf(s[..|s| - 1], c)
  }

  /** `Math.max` of the four `lastIndexOf` calls: the index of the last sentence
      terminator of the window, or -1 when the window has none. */
  function LastSentenceEnd(window: string): (p: int)
    ensures -1 <= p < |window|
    ensures p >= 0 ==> IsSentenceEnd(window[p])
    ensures forall k :: p < k < |window| ==> !IsSentenceEnd(window[k])
    ensures p == -1 <==> forall k :: 0 <= k < |window| ==> !IsSentenceEnd(window[k])
  {
    Max(Max(LastIndexOf(window, '.'), LastIndexOf(window, '!')),
        Max(LastIndexOf(window, '?'), LastIndexOf(window, '。')))
  }

  /** A half-open character range `[start, end)` of the text. */
  datatype Span = Span(start: nat, end: nat)

  ghost predicate SpansIn(text: string, spans: seq<Span>) {
    forall i :: 0 <= i < |spans| ==> spans[i].start <= spans[i].end <= |text|
  }

  function Slice(text: string, s: Span): string
    requires s.start <= s.end <= |text|
  {
    text[s.start..s.end]
  }

  /** The substrings the spans select, in order. */
  function Slices(text: string, spans: seq<Span>): (r: seq<string>)
    requires SpansIn(text, spans)
    ensures |r| == |spans|
  {
    if |spans| == 0 then [] else [Slice(text, spans[0])] + Slices(text, spans[1..])
  }

  /** Slice `i` of `Slices` is the slice of span `i`. */
  lemma {:induction false} SlicesAt(text: string, spans: seq<Span>, i: nat)
    requires SpansIn(text, spans) && i < |spans|
    ensures Slices(text, spans)[i] == Slice(text, spans[i])
    decreases i
  {
    if i > 0 {
      SlicesAt(text, spans[1..], i - 1);
    }
  }

  lemma AppendShift<T>(a: seq<T>, x: T, b: seq<T>)
    ensures (a + [x]) + b == a + ([x] + b)
  {
  }

  /** Slicing distributes over concatenation. */
  lemma {:induction false} SlicesAppend(text: string, a: seq<Span>, b: seq<Span>)
    requires SpansIn(text, a) && SpansIn(text, b)
    ensures SpansIn(text, a + b)
    ensures Slices(text, a + b) == Slices(text, a) + Slices(text, b)
    decreases |a|
  {
    if |a| > 0 {
      SlicesAppend(text, a[1..], b);
      assert (a + b)[1..] == a[1..] + b;
    } else {
      assert a + b == b;
    }
  }

  /** Slicing one more span appends one more slice. */
  lemma {:induction false} SlicesSnoc(text: string, spans: seq<Span>, last: Span)
    requires SpansIn(text, spans) && last.start <= last.end <= |text|
    ensures SpansIn(text, spans + [last])
    ensures Slices(text, spans + [last]) == Slices(text, spans) + [Slice(text, last)]
    decreases |spans|
  {
    if |spans| > 0 {
      SlicesSnoc(text, spans[1..], last);
      assert (spans + [last])[1..] == spans[1..] + [last];
    }
  }

  /** One iteration of the loop: the span pushed, where the next window starts, and
      whether this was the final (`break`) iteration. */
  datatype Cut = Cut(span: Span, next: nat, last: bool)

  function CutAt(text: string, chunkSize: nat, overlap: nat, start: nat): (c: Cut)
    requires overlap < chunkSize && start < |text|
    ensures c.span.start == start < c.span.end <= |text|
    ensures c.span.end - c.span.start <= chunkSize
    ensures c.last <==> start + chunkSize >= |text|
    ensures c.last ==> c.span.end == |text|
    ensures !c.last ==> start < c.next <= c.span.end < |text|
  {
    var end := Min(start + chunkSize, |text|);
    if end < |text| then
      var p := LastSentenceEnd(text[start..end]);
      if 2 * p > end - start then Cut(Span(start, start + p + 1), start + p + 1, false)
      else Cut(Span(start, end), start + chunkSize - overlap, false)
    else Cut(Span(start, end), end, true)
  }

  /** The spans of the chunks the loop pushes, from window start `start` on (before the
      blank filter). Every span is a non-empty range of at most `chunkSize` characters
      inside the text. */
  function RawSpans(text: string, chunkSize: nat, overlap: nat, start: nat): (spans: seq<Span>)
    requires overlap < chunkSize && start <= |text|
    ensures SpansIn(text, spans)
    ensures forall i :: 0 <= i < |spans| ==>
              start <= spans[i].start < spans[i].end && spans[i].end - spans[i].start <= chunkSize
    decreases |text| - start
  {
    if start == |text| then []
    else
      var c := CutAt(text, chunkSize, overlap, start);
      if c.last then [c.span] else [c.span] + RawSpans(text, chunkSize, overlap, c.next)
  }

  /** `chunks.filter(chunk => chunk.trim().length > 0)`; by `Text.TrimEmptyIffBlank` the
      test is that the chunk is not blank. */
  function KeepNonBlank(chunks: seq<string>): (r: seq<string>)
    ensures |r| <= |chunks|
    ensures forall c :: c in r <==> c in chunks && !IsBlank(c)
  {
    if |chunks| == 0 then []
    else (if !IsBlank(chunks[0]) then [chunks[0]] else []) + KeepNonBlank(chunks[1..])
  }

  /** `chunkText(text, chunkSize, overlap)`: every chunk passes the filter, and a text
      that is not blank yields a chunk. The source does not check `overlap < chunkSize`;
      without it, a hard cut (a window short of the end with no terminator past its
      middle) moves the start by `chunkSize - overlap <= 0`, so the loop stalls or runs
      backwards from there. Its callers pass 1000 and 200. */
  function ChunkText(text: string, chunkSize: nat, overlap: nat): (chunks: seq<string>)
    requires overlap < chunkSize
    ensures forall i :: 0 <= i < |chunks| ==> !IsBlank(chunks[i])
    ensures !IsBlank(text) ==> |chunks| > 0
  {
    KeepNonBlankNotBlank(Slices(text, RawSpans(text, chunkSize, overlap, 0)));
    KeptChunksExist(text, chunkSize, overlap);
    KeepNonBlank(Slices(text, RawSpans(text, chunkSize, overlap, 0)))
  }

  /** The filter keeps only chunks that are not blank. */
  lemma {:induction false} KeepNonBlankNotBlank(chunks: seq<string>)
    ensures forall i :: 0 <= i < |KeepNonBlank(chunks)| ==> !IsBlank(KeepNonBlank(chunks)[i])
    decreases |chunks|
  {
    if |chunks| > 0 {
      KeepNonBlankNotBlank(chunks[1..]);
      var head := if !IsBlank(chunks[0]) then [chunks[0]] else [];
      var rest := KeepNonBlank(chunks[1..]);
      assert KeepNonBlank(chunks) == head + rest;
      forall i | 0 <= i < |head + rest|
        ensures !IsBlank((head + rest)[i])
      {
        if i >= |head| {
          assert (head + rest)[i] == rest[i - |head|];
        }
      }
    }
  }

  /** One pass of the loop body of `chunkText`: the chunk pushed, the next window start,
      and whether the loop breaks. */
  method NextChunk(text: string, chunkSize: nat, overlap: nat, start: nat)
    returns (chunk: string, next: nat, last: bool)
    requires overlap < chunkSize && start < |text|
    ensures chunk == Slice(text, CutAt(text, chunkSize, overlap, start).span)
    ensures next == CutAt(text, chunkSize, overlap, start).next
    ensures last == CutAt(text, chunkSize, overlap, start).last
  {
    var end := Min(start + chunkSize, |text|);
    var window := text[start..end];
    if end < |text| {
      var p := LastSentenceEnd(window);
      if 2 * p > |window| {
        chunk := window[..p + 1];
        next := start + p + 1;
        assert chunk == text[start..start + p + 1] by {
          assert end == start + chunkSize && |window| == chunkSize;
          assert forall i :: 0 <= i < p + 1 ==> chunk[i] == text[start + i];
        }
      } else {
        chunk := window;
        next := start + chunkSize - overlap;
      }
      last := false;
    } else {
      chunk := window;
      next := end;
      last := true;
    }
  }

  /** The loop of `chunkText` as written, computing the same chunks as `ChunkText`. */
  method ChunkTextLoop(text: string, chunkSize: nat, overlap: nat) returns (chunks: seq<string>)
    requires overlap < chunkSize
    ensures chunks == ChunkText(text, chunkSize, overlap)
  {
    var raw: seq<string> := [];
    var start: nat := 0;
    ghost var done: seq<Span> := [];
    while start < |text|
      invariant start <= |text|
      invariant SpansIn(text, done)
      invariant done + RawSpans(text, chunkSize, overlap, start) == RawSpans(text, chunkSize, overlap, 0)
      invariant raw == Slices(text, done)
      decreases |text| - start
    {
      RawSpansUnfold(text, chunkSize, overlap, start);
      ghost var cut := CutAt(text, chunkSize, overlap, start);
      SlicesSnoc(text, done, cut.span);
      var chunk, next, last := NextChunk(text, chunkSize, overlap, start);
      raw := raw + [chunk];
      if last {
        assert done + [cut.span] == RawSpans(text, chunkSize, overlap, 0);
        done := done + [cut.span];
        break;
      }
      AppendShift(done, cut.span, RawSpans(text, chunkSize, overlap, next));
      done := done + [cut.span];
      start := next;
    }
    assert done == RawSpans(text, chunkSize, overlap, 0);
    chunks := KeepNonBlank(raw);
  }

  // ----- the shape of one cut -----

  /** `RawSpans` one step at a time. */
  lemma RawSpansUnfold(text: string, chunkSize: nat, overlap: nat, start: nat)
    requires overlap < chunkSize && start < |text|
    ensures RawSpans(text, chunkSize, overlap, start)
            == if CutAt(text, chunkSize, overlap, start).last then [CutAt(text, chunkSize, overlap, start).span] else [CutAt(text, chunkSize, overlap, start).span] + RawSpans(text, chunkSize, overlap, CutAt(text, chunkSize, overlap, start).next)
  {
  }

  /** A cut at a sentence terminator: the chunk ends with the terminator, which lies past
      the middle of a full window and is the window's last terminator, and the next
      window starts right after it (no overlap). */
  ghost predicate SentenceCut(text: string, chunkSize: nat, a: Span, next: nat) {
    && a.start < a.end <= a.start + chunkSize < |text|
    && IsSentenceEnd(text[a.end - 1])
    && 2 * (a.end - 1 - a.start) > chunkSize
    && (forall k :: a.end <= k < a.start + chunkSize ==> !IsSentenceEnd(text[k]))
    && next == a.end
  }

  /** A hard cut: the chunk is the full window of `chunkSize` characters, no terminator
      lies past its middle, and the next window starts `chunkSize - overlap` later, so
      the two windows share the last `overlap` characters of the first. */
  ghost predicate HardCut(text: string, chunkSize: nat, overlap: nat, a: Span, next: nat) {
    && a.end == a.start + chunkSize < |text|
    && (forall k :: a.start <= k < a.end && 2 * (k - a.start) > chunkSize ==> !IsSentenceEnd(text[k]))
    && next == a.start + chunkSize - overlap
    && a.end - next == overlap
  }

  /** The window from `start` has a sentence terminator past its middle. */
  ghost predicate LateTerminator(text: string, chunkSize: nat, start: nat) {
    exists k :: start <= k < start + chunkSize && k < |text| && 2 * (k - start) > chunkSize && IsSentenceEnd(text[k])
  }

  /** A terminator past the middle of a full window puts the window's last terminator
      past the middle too. */
  lemma LastTerminatorPastMiddle(text: string, chunkSize: nat, start: nat)
    requires start + chunkSize < |text| && LateTerminator(text, chunkSize, start)
    ensures 2 * LastSentenceEnd(text[start..start + chunkSize]) > chunkSize
  {
    var w := text[start..start + chunkSize];
    var k :| start <= k < start + chunkSize && k < |text| && 2 * (k - start) > chunkSize && IsSentenceEnd(text[k]);
    assert IsSentenceEnd(w[k - start]);
  }

  /** The characters of a window after its last terminator are no terminators. */
  lemma AfterLastTerminator(text: string, chunkSize: nat, start: nat)
    requires start + chunkSize < |text|
    ensures forall k :: start + LastSentenceEnd(text[start..start + chunkSize]) < k < start + chunkSize ==> !IsSentenceEnd(text[k])
  {
    var w := text[start..start + chunkSize];
    forall k | start + LastSentenceEnd(w) < k < start + chunkSize
      ensures !IsSentenceEnd(text[k])
    {
      assert text[k] == w[k - start];
    }
  }

  lemma SentenceCutShape(text: string, chunkSize: nat, overlap: nat, start: nat)
    requires overlap < chunkSize && start + chunkSize < |text|
    requires LateTerminator(text, chunkSize, start)
    ensures SentenceCut(text, chunkSize, CutAt(text, chunkSize, overlap, start).span, CutAt(text, chunkSize, overlap, start).next)
  {
    var w := text[start..start + chunkSize];
    var p := LastSentenceEnd(w);
    LastTerminatorPastMiddle(text, chunkSize, start);
    AfterLastTerminator(text, chunkSize, start);
    assert CutAt(text, chunkSize, overlap, start) == Cut(Span(start, start + p + 1), start + p + 1, false);
    assert IsSentenceEnd(text[start + p]) by {
      assert w[p] == text[start + p];
    }
  }

  lemma HardCutShape(text: string, chunkSize: nat, overlap: nat, start: nat)
    requires overlap < chunkSize && start + chunkSize < |text|
    requires !LateTerminator(text, chunkSize, start)
    ensures HardCut(text, chunkSize, overlap, CutAt(text, chunkSize, overlap, start).span, CutAt(text, chunkSize, overlap, start).next)
  {
    var w := text[start..start + chunkSize];
    var p := LastSentenceEnd(w);
    if p >= 0 {
      assert w[p] == text[start + p];
    }
  }

  /** A cut that is not the last one is a sentence cut or a hard cut, and which one is
      decided by whether the window has a terminator past its middle. */
  lemma CutShape(text: string, chunkSize: nat, overlap: nat, start: nat)
    requires overlap < chunkSize && start < |text|
    ensures !CutAt(text, chunkSize, overlap, start).last ==>
              if LateTerminator(text, chunkSize, start)
              then SentenceCut(text, chunkSize, CutAt(text, chunkSize, overlap, start).span, CutAt(text, chunkSize, overlap, start).next)
              else HardCut(text, chunkSize, overlap, CutAt(text, chunkSize, overlap, start).span, CutAt(text, chunkSize, overlap, start).next)
  {
    if start + chunkSize < |text| {
      if LateTerminator(text, chunkSize, start) {
        SentenceCutShape(text, chunkSize, overlap, start);
      } else {
        HardCutShape(text, chunkSize, overlap, start);
      }
    }
  }

  /** The shape of a run of windows from `start`: none exactly when `start` is the end of
      the text; the first starts at `start`; every one but the last ends in a sentence
      cut or a hard cut that leads to the next; the last runs to the end of the text from
      a window that reaches it. */
  ghost predicate WellCut(text: string, chunkSize: nat, overlap: nat, start: nat, spans: seq<Span>) {
    && (start == |text| <==> |spans| == 0)
    && (|spans| > 0 ==> spans[0].start == start)
    && (|spans| > 0 ==> spans[|spans| - 1].end == |text| <= spans[|spans| - 1].start + chunkSize)
    && forall i :: 0 <= i < |spans| - 1 ==>
         SentenceCut(text, chunkSize, spans[i], spans[i + 1].start)
         || HardCut(text, chunkSize, overlap, spans[i], spans[i + 1].start)
  }

  /** The windows the loop visits are well cut. */
  lemma {:induction false} RawSpansCuts(text: string, chunkSize: nat, overlap: nat, start: nat)
    requires overlap < chunkSize && start <= |text|
    ensures WellCut(text, chunkSize, overlap, start, RawSpans(text, chunkSize, overlap, start))
    decreases |text| - start
  {
    var spans := RawSpans(text, chunkSize, overlap, start);
    if start < |text| {
      var c := CutAt(text, chunkSize, overlap, start);
      RawSpansUnfold(text, chunkSize, overlap, start);
      if !c.last {
        RawSpansCuts(text, chunkSize, overlap, c.next);
        CutShape(text, chunkSize, overlap, start);
        var rest := RawSpans(text, chunkSize, overlap, c.next);
        forall i | 0 <= i < |spans| - 1
          ensures SentenceCut(text, chunkSize, spans[i], spans[i + 1].start)
                  || HardCut(text, chunkSize, overlap, spans[i], spans[i + 1].start)
        {
          if i > 0 {
            assert spans[i] == rest[i - 1] && spans[i + 1] == rest[i];
          }
        }
      }
    }
  }

  /** Putting a span in front of ordered spans that all start later keeps them ordered. */
  lemma OrderedCons(x: Span, rest: seq<Span>)
    requires InTextOrder(rest)
    requires forall i :: 0 <= i < |rest| ==> x.start < rest[i].start
    ensures InTextOrder([x] + rest)
  {
    var spans := [x] + rest;
    forall i, j | 0 <= i < j < |spans|
      ensures spans[i].start < spans[j].start
    {
      assert spans[j] == rest[j - 1];
      if i > 0 {
        assert spans[i] == rest[i - 1];
      }
    }
  }

  /** Some span holds position `k`. */
  ghost predicate Covers(spans: seq<Span>, k: nat) {
    exists i :: 0 <= i < |spans| && spans[i].start <= k < spans[i].end
  }

  lemma CoversCons(x: Span, rest: seq<Span>, k: nat)
    requires x.start <= k < x.end || Covers(rest, k)
    ensures Covers([x] + rest, k)
  {
    var spans := [x] + rest;
    if x.start <= k < x.end {
      assert spans[0] == x;
    } else {
      var i :| 0 <= i < |rest| && rest[i].start <= k < rest[i].end;
      assert spans[i + 1] == rest[i];
    }
  }

  /** The windows start strictly later one after the other. */
  lemma {:induction false} RawSpansOrdered(text: string, chunkSize: nat, overlap: nat, start: nat)
    requires overlap < chunkSize && start <= |text|
    ensures InTextOrder(RawSpans(text, chunkSize, overlap, start))
    decreases |text| - start
  {
    if start < |text| {
      var c := CutAt(text, chunkSize, overlap, start);
      RawSpansUnfold(text, chunkSize, overlap, start);
      if !c.last {
        RawSpansOrdered(text, chunkSize, overlap, c.next);
        OrderedCons(c.span, RawSpans(text, chunkSize, overlap, c.next));
      }
    }
  }

  /** Consecutive windows are adjacent or overlap, so together the raw spans cover every
      character of the text. */
  lemma {:induction false} RawSpansCover(text: string, chunkSize: nat, overlap: nat, start: nat, k: nat)
    requires overlap < chunkSize && start <= k < |text|
    ensures Covers(RawSpans(text, chunkSize, overlap, start), k)
    decreases |text| - start
  {
    var c := CutAt(text, chunkSize, overlap, start);
    RawSpansUnfold(text, chunkSize, overlap, start);
    if c.last {
      CoversCons(c.span, [], k);
      assert [c.span] + [] == [c.span];
    } else {
      if k >= c.span.end {
        RawSpansCover(text, chunkSize, overlap, c.next, k);
      }
      CoversCons(c.span, RawSpans(text, chunkSize, overlap, c.next), k);
    }
  }

  // ----- the blank filter, on spans -----

  /** The spans whose slice survives the blank filter, in order. */
  function KeptSpans(text: string, spans: seq<Span>): (kept: seq<Span>)
    requires SpansIn(text, spans)
    ensures SpansIn(text, kept)
  {
    if |spans| == 0 then []
    else (if !IsBlank(Slice(text, spans[0])) then [spans[0]] else []) + KeptSpans(text, spans[1..])
  }

  /** Filtering the slices is slicing the filtered spans. */
  lemma {:induction false} KeepNonBlankSlices(text: string, spans: seq<Span>)
    requires SpansIn(text, spans)
    ensures KeepNonBlank(Slices(text, spans)) == Slices(text, KeptSpans(text, spans))
    decreases |spans|
  {
    if |spans| > 0 {
      KeepNonBlankSlices(text, spans[1..]);
      var slices := Slices(text, spans);
      assert slices == [Slice(text, spans[0])] + Slices(text, spans[1..]);
      assert slices[0] == Slice(text, spans[0]) && slices[1..] == Slices(text, spans[1..]);
      var head := if !IsBlank(Slice(text, spans[0])) then [spans[0]] else [];
      SlicesAppend(text, head, KeptSpans(text, spans[1..]));
    }
  }

  /** The filter keeps only spans whose slice is not blank. */
  lemma {:induction false} KeptSpansNotBlank(text: string, spans: seq<Span>)
    requires SpansIn(text, spans)
    ensures forall i :: 0 <= i < |KeptSpans(text, spans)| ==> !IsBlank(Slice(text, KeptSpans(text, spans)[i]))
    decreases |spans|
  {
    if |spans| > 0 {
      KeptSpansNotBlank(text, spans[1..]);
      var rest := KeptSpans(text, spans[1..]);
      var head := if !IsBlank(Slice(text, spans[0])) then [spans[0]] else [];
      var kept := KeptSpans(text, spans);
      assert kept == head + rest;
      forall i | 0 <= i < |kept|
        ensures !IsBlank(Slice(text, kept[i]))
      {
        if i >= |head| {
          assert kept[i] == rest[i - |head|];
          assert 0 <= i - |head| < |rest|;
          assert !IsBlank(Slice(text, rest[i - |head|]));
        } else {
          assert kept[i] == spans[0];
          assert !IsBlank(Slice(text, spans[0]));
        }
      }
    }
  }

  /** The filter keeps a length bound that every span satisfies. */
  lemma {:induction false} KeptSpansBounded(text: string, spans: seq<Span>, bound: nat)
    requires SpansIn(text, spans)
    requires forall i :: 0 <= i < |spans| ==> 0 < spans[i].end - spans[i].start <= bound
    ensures forall i :: 0 <= i < |KeptSpans(text, spans)| ==> 0 < KeptSpans(text, spans)[i].end - KeptSpans(text, spans)[i].start <= bound
    decreases |spans|
  {
    if |spans| > 0 {
      KeptSpansBounded(text, spans[1..], bound);
      var rest := KeptSpans(text, spans[1..]);
      var head := if !IsBlank(Slice(text, spans[0])) then [spans[0]] else [];
      var kept := KeptSpans(text, spans);
      assert kept == head + rest;
      forall i | 0 <= i < |kept|
        ensures 0 < kept[i].end - kept[i].start <= bound
      {
        if i >= |head| {
          assert kept[i] == rest[i - |head|];
          assert spans[1..][0] == spans[1];
        }
      }
    }
  }

  /** The filter keeps the spans in order, so strictly increasing starts stay strictly
      increasing, and no kept span starts before the first span. */
  lemma {:induction false} KeptSpansOrdered(text: string, spans: seq<Span>)
    requires SpansIn(text, spans)
    requires InTextOrder(spans)
    ensures && InTextOrder(KeptSpans(text, spans))
            && (|spans| > 0 ==> forall i :: 0 <= i < |KeptSpans(text, spans)| ==> spans[0].start <= KeptSpans(text, spans)[i].start)
    decreases |spans|
  {
    if |spans| > 0 {
      KeptSpansOrdered(text, spans[1..]);
      var rest := KeptSpans(text, spans[1..]);
      var head := if !IsBlank(Slice(text, spans[0])) then [spans[0]] else [];
      var kept := KeptSpans(text, spans);
      assert kept == head + rest;
      if |spans| > 1 {
        assert spans[0].start < spans[1].start;
        assert spans[1..][0] == spans[1];
        assert forall i :: 0 <= i < |rest| ==> spans[1].start <= rest[i].start;
      }
      forall i, j | 0 <= i < j < |kept|
        ensures kept[i].start < kept[j].start
      {
        assert kept[j] == rest[j - |head|];
        if i >= |head| {
          assert kept[i] == rest[i - |head|];
        }
      }
    }
  }

  /** A span holding a non-whitespace character at `k` survives the filter. */
  lemma {:induction false} KeptSpansCover(text: string, spans: seq<Span>, k: nat)
    requires SpansIn(text, spans) && k < |text| && !IsWhitespace(text[k])
    requires Covers(spans, k)
    ensures Covers(KeptSpans(text, spans), k)
    decreases |spans|
  {
    var kept := KeptSpans(text, spans);
    var rest := KeptSpans(text, spans[1..]);
    var head := if !IsBlank(Slice(text, spans[0])) then [spans[0]] else [];
    assert kept == head + rest;
    if spans[0].start <= k < spans[0].end {
      var s := Slice(text, spans[0]);
      assert s[k - spans[0].start] == text[k];
      assert !IsBlank(s);
      assert kept[0] == spans[0];
      assert kept[0].start <= k < kept[0].end;
    } else {
      var i :| 0 <= i < |spans| && spans[i].start <= k < spans[i].end;
      assert spans[1..][i - 1] == spans[i];
      KeptSpansCover(text, spans[1..], k);
      var j :| 0 <= j < |rest| && rest[j].start <= k < rest[j].end;
      assert kept[|head| + j] == rest[j];
    }
  }

  // ----- what chunkText promises -----

  /** The spans of the chunks `chunkText` returns. */
  function ChunkSpans(text: string, chunkSize: nat, overlap: nat): seq<Span>
    requires overlap < chunkSize
  {
    KeptSpans(text, RawSpans(text, chunkSize, overlap, 0))
  }

  /** Chunk `i` is the slice of span `i`, 1 to `bound` characters long and not blank. */
  ghost predicate SlicesOfSpans(text: string, chunks: seq<string>, spans: seq<Span>, bound: nat) {
    && |chunks| == |spans|
    && forall i :: 0 <= i < |spans| ==>
         && 0 < spans[i].end - spans[i].start <= bound
         && spans[i].end <= |text|
         && chunks[i] == text[spans[i].start..spans[i].end]
         && !IsBlank(chunks[i])
  }

  /** The spans start strictly later one after the other. */
  ghost predicate InTextOrder(spans: seq<Span>) {
    forall i, j :: 0 <= i < j < |spans| ==> spans[i].start < spans[j].start
  }

  /** Every character of the text that is not whitespace lies inside some span. */
  ghost predicate CoversContent(text: string, spans: seq<Span>) {
    forall k :: 0 <= k < |text| && !IsWhitespace(text[k]) ==>
      exists i :: 0 <= i < |spans| && spans[i].start <= k < spans[i].end
  }

  /** Every chunk is the contiguous slice of its span, 1 to `chunkSize` characters long
      and not blank. */
  lemma ChunkTextSlices(text: string, chunkSize: nat, overlap: nat)
    requires overlap < chunkSize
    ensures SlicesOfSpans(text, ChunkText(text, chunkSize, overlap), ChunkSpans(text, chunkSize, overlap), chunkSize)
  {
    var raw := RawSpans(text, chunkSize, overlap, 0);
    var spans := ChunkSpans(text, chunkSize, overlap);
    var chunks := ChunkText(text, chunkSize, overlap);
    KeepNonBlankSlices(text, raw);
    KeptSpansNotBlank(text, raw);
    KeptSpansBounded(text, raw, chunkSize);
    forall i | 0 <= i < |spans|
      ensures chunks[i] == Slice(text, spans[i])
    {
      SlicesAt(text, spans, i);
    }
  }

  /** The chunks follow text order. */
  lemma ChunkTextOrdered(text: string, chunkSize: nat, overlap: nat)
    requires overlap < chunkSize
    ensures InTextOrder(ChunkSpans(text, chunkSize, overlap))
  {
    var raw := RawSpans(text, chunkSize, overlap, 0);
    RawSpansOrdered(text, chunkSize, overlap, 0);
    KeptSpansOrdered(text, raw);
  }

  /** No content is lost: every non-whitespace character lies in some chunk. */
  lemma ChunkTextCovers(text: string, chunkSize: nat, overlap: nat)
    requires overlap < chunkSize
    ensures CoversContent(text, ChunkSpans(text, chunkSize, overlap))
  {
    var raw := RawSpans(text, chunkSize, overlap, 0);
    var spans := ChunkSpans(text, chunkSize, overlap);
    forall k | 0 <= k < |text| && !IsWhitespace(text[k])
      ensures exists i :: 0 <= i < |spans| && spans[i].start <= k < spans[i].end
    {
      RawSpansCover(text, chunkSize, overlap, 0, k);
      KeptSpansCover(text, raw, k);
    }
  }

  /** A text with a character other than whitespace keeps at least one chunk after the
      filter. */
  lemma KeptChunksExist(text: string, chunkSize: nat, overlap: nat)
    requires overlap < chunkSize
    ensures !IsBlank(text) ==> |KeepNonBlank(Slices(text, RawSpans(text, chunkSize, overlap, 0)))| > 0
  {
    if !IsBlank(text) {
      var raw := RawSpans(text, chunkSize, overlap, 0);
      var k :| 0 <= k < |text| && !IsWhitespace(text[k]);
      RawSpansCover(text, chunkSize, overlap, 0, k);
      KeptSpansCover(text, raw, k);
      KeepNonBlankSlices(text, raw);
    }
  }

  /** A text no longer than one window is returned whole, untrimmed, unless it is
      blank, in which case there are no chunks (the empty text included). */
  lemma ShortText(text: string, chunkSize: nat, overlap: nat)
    requires overlap < chunkSize && |text| <= chunkSize
    ensures ChunkText(text, chunkSize, overlap) == (if IsBlank(text) then [] else [text])
  {
    if |text| > 0 {
      RawSpansUnfold(text, chunkSize, overlap, 0);
      assert RawSpans(text, chunkSize, overlap, 0) == [Span(0, |text|)];
      assert text[0..|text|] == text;
    }
  }

  /** Cutting "A. B. C." with a five-character window and an overlap of one stops at the
      second full stop, which lies past the middle of the first window. */
  lemma SentenceBoundaryExample()
    ensures ChunkText("A. B. C.", 5, 1) == ["A. B.", " C."]
  {
    var text := "A. B. C.";
    assert LastSentenceEnd(text[0..5]) == 4;
    assert CutAt(text, 5, 1, 0) == Cut(Span(0, 5), 5, false);
    assert CutAt(text, 5, 1, 5) == Cut(Span(5, 8), 8, true);
    assert RawSpans(text, 5, 1, 5) == [Span(5, 8)];
    assert RawSpans(text, 5, 1, 0) == [Span(0, 5), Span(5, 8)];
    var spans := [Span(0, 5), Span(5, 8)];
    assert spans[1..] == [Span(5, 8)];
    assert Slice(text, Span(0, 5)) == "A. B." && Slice(text, Span(5, 8)) == " C.";
    assert Slices(text, [Span(5, 8)]) == [Slice(text, Span(5, 8))] + Slices(text, []);
    assert Slices(text, spans) == ["A. B.", " C."];
    assert !IsWhitespace("A. B."[0]) && !IsWhitespace(" C."[1]);
    assert KeepNonBlank([" C."]) == [" C."];
  }
}

=== FILE: client_store.dfy ===
/** The two client-side stores of the web front end: the document list and the chat
    transcript. Each store is a value; each action is a function from the state before
    to the state after.
 */
module ClientStore {
  import opened Common
  import VectorStore

  /** A document as the client lists it. */
  datatype ClientDocument = ClientDocument(id: string, filename: string, originalName: string, mimeType: string,
                                           size: nat, uploadedAt: nat, chunkCount: Option<nat>)

  datatype Role = User | Assistant

  /** A message of the transcript; an answer carries the chunks it was drawn from. */
  datatype ClientMessage = ClientMessage(id: string, role: Role, content: string, timestamp: nat,
                                         sources: Option<seq<VectorStore.DocumentChunk>>)

  datatype DocumentState = DocumentState(documents: seq<ClientDocument>, isLoading: bool)

  datatype ChatState = ChatState(messages: seq<ClientMessage>, isLoading: bool)

  /** Both stores start with nothing listed and nothing loading. */
  const InitialDocuments := DocumentState([], false)
  const InitialChat := ChatState([], false)

  // ----- the document store -----

  /** `setDocuments`: replace the list. */
  function SetDocuments(s: DocumentState, documents: seq<ClientDocument>): (t: DocumentState)
    ensures t.documents == documents && t.isLoading == s.isLoading
  {
    s.(documents := documents)
  }

  /** `addDocument`: append at the end; the documents already listed keep their places. */
  function AddDocument(s: DocumentState, d: ClientDocument): (t: DocumentState)
    ensures |t.documents| == |s.documents| + 1
    ensures t.documents[..|s.documents|] == s.documents && t.documents[|s.documents|] == d
    ensures t.isLoading == s.isLoading
  {
    s.(documents := s.documents + [d])
  }

  /** `documents.filter(doc => doc.id !== id)`. */
  function WithoutId(documents: seq<ClientDocument>, id: string): (kept: seq<ClientDocument>)
    ensures |kept| <= |documents|
    ensures forall i :: 0 <= i < |kept| ==> kept[i].id != id
    ensures forall d :: d in kept ==> d in documents
  {
    if |documents| == 0 then []
    else (if documents[0].id != id then [documents[0]] else []) + WithoutId(documents[1..], id)
  }

  /** The filter keeps exactly the documents with another id. */
  lemma {:induction false} WithoutIdMembers(documents: seq<ClientDocument>, id: string)
    ensures forall d :: d in WithoutId(documents, id) <==> d in documents && d.id != id
    decreases |documents|
  {
    if |documents| > 0 {
      WithoutIdMembers(documents[1..], id);
      assert documents == [documents[0]] + documents[1..];
    }
  }

  /** `removeDocument`: drop every document with the id. */
  function RemoveDocument(s: DocumentState, id: string): (t: DocumentState)
    ensures forall d :: d in t.documents <==> d in s.documents && d.id != id
    ensures t.isLoading == s.isLoading
  {
    WithoutIdMembers(s.documents, id);
    s.(documents := WithoutId(s.documents, id))
  }

  /** `setLoading`: only the flag changes. */
  function SetLoading(s: DocumentState, isLoading: bool): (t: DocumentState)
    ensures t.documents == s.documents && t.isLoading == isLoading
  {
    s.(isLoading := isLoading)
  }

  /** The filter works piecewise, so the documents it keeps stay in their relative order. */
  lemma {:induction false} WithoutIdAppend(a: seq<ClientDocument>, b: seq<ClientDocument>, id: string)
    ensures WithoutId(a + b, id) == WithoutId(a, id) + WithoutId(b, id)
    decreases |a|
  {
    if |a| == 0 {
      assert a + b == b;
    } else {
      var head := if a[0].id != id then [a[0]] else [];
      assert (a + b)[0] == a[0];
      assert (a + b)[1..] == a[1..] + b;
      WithoutIdAppend(a[1..], b, id);
      calc {
        WithoutId(a + b, id);
        head + WithoutId(a[1..] + b, id);
        head + (WithoutId(a[1..], id) + WithoutId(b, id));
        (head + WithoutId(a[1..], id)) + WithoutId(b, id);
      }
    }
  }

  /** Removing an id nobody has changes nothing. */
  lemma {:induction false} WithoutAbsentId(documents: seq<ClientDocument>, id: string)
    requires forall i :: 0 <= i < |documents| ==> documents[i].id != id
    ensures WithoutId(documents, id) == documents
    decreases |documents|
  {
    if |documents| > 0 {
      WithoutAbsentId(documents[1..], id);
    }
  }

  /** Removing twice is removing once. */
  lemma RemoveIdempotent(s: DocumentState, id: string)
    ensures RemoveDocument(RemoveDocument(s, id), id) == RemoveDocument(s, id)
  {
    var once := WithoutId(s.documents, id);
    WithoutIdMembers(s.documents, id);
    forall i | 0 <= i < |once|
      ensures once[i].id != id
    {
      assert once[i] in once;
    }
    WithoutAbsentId(once, id);
  }

  /** Removing an id that is not listed leaves the store as it was. */
  lemma RemoveAbsent(s: DocumentState, id: string)
    requires forall d :: d in s.documents ==> d.id != id
    ensures RemoveDocument(s, id) == s
  {
    WithoutAbsentId(s.documents, id);
  }

  /** Adding a document whose id is new and then removing that id restores the store. */
  lemma AddThenRemove(s: DocumentState, d: ClientDocument)
    requires forall e :: e in s.documents ==> e.id != d.id
    ensures RemoveDocument(AddDocument(s, d), d.id) == s
  {
    WithoutIdAppend(s.documents, [d], d.id);
    WithoutAbsentId(s.documents, d.id);
    assert WithoutId([d], d.id) == [];
  }

  // ----- the chat store -----

  /** `addMessage`: append at the end; earlier messages keep their places. */
  function AddMessage(s: ChatState, m: ClientMessage): (t: ChatState)
    ensures |t.messages| == |s.messages| + 1
    ensures t.messages[..|s.messages|] == s.messages && t.messages[|s.messages|] == m
    ensures t.isLoading == s.isLoading
  {
    s.(messages := s.messages + [m])
  }

  /** `setMessages`: replace the transcript. */
  function SetMessages(s: ChatState, messages: seq<ClientMessage>): (t: ChatState)
    ensures t.messages == messages && t.isLoading == s.isLoading
  {
    s.(messages := messages)
  }

  /** `setLoading` of the chat store: only the flag changes. */
  function SetChatLoading(s: ChatState, isLoading: bool): (t: ChatState)
    ensures t.messages == s.messages && t.isLoading == isLoading
  {
    s.(isLoading := isLoading)
  }

  /** `clearMessages`: an empty transcript; the flag is left alone. */
  function ClearMessages(s: ChatState): (t: ChatState)
    ensures t.messages == [] && t.isLoading == s.isLoading
  {
    s.(messages := [])
  }

  /** Appending messages one by one from a cleared store rebuilds exactly the messages
      appended, in order. */
  lemma {:induction false} ReplayMessages(s: ChatState, ms: seq<ClientMessage>)
    ensures AddAll(ClearMessages(s), ms) == SetMessages(s, ms)
    decreases |ms|
  {
    if |ms| > 0 {
      var init, last := ms[..|ms| - 1], ms[|ms| - 1];
      calc {
        AddAll(ClearMessages(s), ms);
        AddMessage(AddAll(ClearMessages(s), init), last);
        { ReplayMessages(s, init); }
        AddMessage(SetMessages(s, init), last);
        s.(messages := init + [last]);
        { assert init + [last] == ms; }
        SetMessages(s, ms);
      }
    }
  }

  /** `addMessage` for each message in turn. */
  function AddAll(s: ChatState, ms: seq<ClientMessage>): ChatState
    decreases |ms|
  {
    if |ms| == 0 then s else AddMessage(AddAll(s, ms[..|ms| - 1]), ms[|ms| - 1])
  }
}

=== FILE: common.dfy ===
/** Failure-carrying wrappers and the error vocabulary shared by the backend services.

    The backend reports failures by throwing: plain `Error`s from the vector service,
    Nest HTTP exceptions (`BadRequestException`, `NotFoundException`) from the
    controllers and services. Here a throw becomes an `Err` value carrying which kind
    of exception it was and its message.
 */
module Common {

  /** A value that may be absent (`undefined`/`null` in the source, or a call that threw). */
  datatype Option<+T> = None | Some(value: T)

  /** The exception classes the backend throws. */
  datatype Error =
    | Plain(message: string)          // `throw new Error(message)`
    | BadRequest(message: string)     // `BadRequestException`, HTTP 400
    | NotFound(message: string)       // `NotFoundException`, HTTP 404
    | PayloadTooLarge                 // the upload size limit, raised by the multipart parser
    | Upstream                        // an exception raised inside a collaborator the model does not see

  datatype Result<+T> = Ok(value: T) | Err(error: Error)

  /** A byte of a file. */
  newtype byte = x: int | 0 <= x < 256

  function Min(a: int, b: int): int { if a <= b then a else b }

  function Max(a: int, b: int): int { if a >= b then a else b }
}

=== FILE: documents.dfy ===
/** The document service: uploading a file, extracting its text, indexing it (chunks in
    the vector collection and chunk rows in the database), listing documents and
    deleting one.

    The database tables, the vector collection and the upload directory together are a
    value of `Backend`. PDF parsing and UTF-8 decoding are function parameters; every
    write that can fail has a flag saying whether it throws.
 */
module Documents {
  import opened Common
  import opened Text
  import Chunker
  import opened VectorStore

  const PdfMime := "application/pdf"
  const PlainMime := "text/plain"
  const MarkdownMime := "text/markdown"

  const UploadFailed := "Failed to upload document"
  const DeleteDocumentFailed := "Failed to delete document"
  const DeletedMessage := "Document deleted successfully"
  const UploadedMessage := "Document uploaded successfully"

  /** A row of the document table. */
  datatype Document = Document(id: string, filename: string, originalName: string, mimeType: string,
                               size: nat, uploadedAt: nat, filePath: string)

  /** A row of the chunk table: the chunk's document, text and position, and
      `metadata.length`. The `embedding` column is always written empty. */
  datatype ChunkRow = ChunkRow(documentId: string, content: string, chunkIndex: nat, length: nat)

  datatype Backend = Backend(
    documents: map<string, Document>,
    chunks: seq<ChunkRow>,
    vectors: Collection,
    files: map<string, seq<byte>>)

  /** Not-found message of `findOne`. */
  function NotFoundMessage(id: string): string {
    "Document with ID " + id + " not found"
  }

  function UnsupportedMessage(mimeType: string): string {
    "Unsupported file type: " + mimeType
  }

  // ----- text extraction -----

  /** The MIME types `extractTextFromFile` has a case for. */
  predicate Extractable(mimeType: string) {
    mimeType == PdfMime || mimeType == PlainMime || mimeType == MarkdownMime
  }

  /** The two text decoders: `pdf(bytes)` is `None` when `pdf-parse` throws. */
  datatype Decoders = Decoders(pdf: seq<byte> -> Option<string>, utf8: seq<byte> -> string)

  /** `extractTextFromFile`: read the file, then decode it by MIME type. A missing file
      fails before the type is looked at; an unknown type is a bad request. */
  function ExtractText(files: map<string, seq<byte>>, d: Decoders, path: string, mimeType: string): (r: Result<string>)
    ensures path !in files ==> r == Err(Upstream)
    ensures path in files && !Extractable(mimeType) ==> r == Err(BadRequest(UnsupportedMessage(mimeType)))
    ensures r.Ok? ==> path in files && Extractable(mimeType)
    ensures path in files && (mimeType == PlainMime || mimeType == MarkdownMime) ==> r == Ok(d.utf8(files[path]))
    ensures path in files && mimeType == PdfMime ==> (r.Ok? <==> d.pdf(files[path]).Some?)
    ensures path in files && mimeType == PdfMime && d.pdf(files[path]).Some? ==> r == Ok(d.pdf(files[path]).value)
  {
    if path !in files then Err(Upstream)
    else
      var buffer := files[path];
      if mimeType == PdfMime then
        match d.pdf(buffer)
        case Some(text) => Ok(text)
        case None => Err(Upstream)
      else if mimeType == PlainMime || mimeType == MarkdownMime then Ok(d.utf8(buffer))
      else Err(BadRequest(UnsupportedMessage(mimeType)))
  }

  // ----- indexing -----

  /** The rows written for a document's chunks: one per chunk, indexed from 0 without
      gaps, each holding its chunk and that chunk's length. */
  function ChunkRows(documentId: string, chunks: seq<string>): (rows: seq<ChunkRow>)
    ensures |rows| == |chunks|
    ensures forall i :: 0 <= i < |rows| ==>
              && rows[i].documentId == documentId && rows[i].chunkIndex == i
              && rows[i].content == chunks[i] && rows[i].length == |rows[i].content|
  {
    seq(|chunks|, i requires 0 <= i < |chunks| => ChunkRow(documentId, chunks[i], i, |chunks[i]|))
  }

  /** The chunks indexing cuts a text into: the default window of 1000 characters with
      an overlap of 200. */
  function DocumentChunks(text: string): seq<string> {
    Chunker.ChunkText(text, Chunker.DefaultChunkSize, Chunker.DefaultOverlap)
  }

  /** How processing ended; the source only logs it. */
  datatype ProcessOutcome = Indexed(count: nat) | NoText | Failed(error: Error)

  datatype Processed = Processed(b: Backend, outcome: ProcessOutcome)

  /** Which writes of the indexing throw. */
  datatype IndexFaults = IndexFaults(addFails: bool, createManyFails: bool)

  /** `processDocumentAsync`: extract the text; stop when it is blank; otherwise chunk it
      with the default sizes, store the chunks in the vector collection, then insert one
      chunk row per chunk. Every failure is caught and only logged; a failure of the
      row insert leaves the vectors stored. */
  function ProcessDocument(b: Backend, embed: string -> Option<Embedding>, d: Decoders, f: IndexFaults,
                           documentId: string, path: string, mimeType: string): (r: Processed)
    ensures r.b.documents == b.documents && r.b.files == b.files
    ensures r.outcome.NoText? ==> r.b == b
    ensures !r.outcome.Indexed? ==> r.b.chunks == b.chunks
    ensures ExtractText(b.files, d, path, mimeType).Err? ==>
              r == Processed(b, Failed(ExtractText(b.files, d, path, mimeType).error))
    ensures r.outcome.Indexed? ==> ExtractText(b.files, d, path, mimeType).Ok?
    ensures var text := ExtractText(b.files, d, path, mimeType);
            text.Ok? ==>
              var chunks := DocumentChunks(text.value);
              var stored := StoreDocumentChunks(b.vectors, embed, f.addFails, documentId, chunks);
              && (r.outcome.Indexed? <==> !IsBlank(text.value) && stored.Ok? && !f.createManyFails)
              && (r.outcome.Indexed? ==>
                    && r.outcome.count == |chunks|
                    && r.b.chunks == b.chunks + ChunkRows(documentId, chunks)
                    && r.b.vectors == stored.value)
              && (!IsBlank(text.value) && stored.Err? ==> r == Processed(b, Failed(stored.error)))
              && (!IsBlank(text.value) && stored.Ok? && f.createManyFails ==>
                    r == Processed(b.(vectors := stored.value), Failed(Upstream)))
  {
    match ExtractText(b.files, d, path, mimeType)
    case Err(e) => Processed(b, Failed(e))
    case Ok(text) =>
      if IsBlank(text) then Processed(b, NoText)
      else
        var chunks := DocumentChunks(text);
        match StoreDocumentChunks(b.vectors, embed, f.addFails, documentId, chunks)
        case Err(e) => Processed(b, Failed(e))
        case Ok(vectors) =>
          if f.createManyFails then Processed(b.(vectors := vectors), Failed(Upstream))
          else Processed(b.(vectors := vectors, chunks := b.chunks + ChunkRows(documentId, chunks)), Indexed(|chunks|))
  }

  /** `!textContent.trim()` is the blank test: the early exit happens exactly when the
      extracted text has no character other than whitespace. */
  lemma BlankTextSkipsIndexing(b: Backend, embed: string -> Option<Embedding>, d: Decoders, f: IndexFaults,
                               documentId: string, path: string, mimeType: string)
    requires ExtractText(b.files, d, path, mimeType).Ok?
    ensures (ProcessDocument(b, embed, d, f, documentId, path, mimeType).outcome == NoText)
            <==> |Trim(ExtractText(b.files, d, path, mimeType).value)| == 0
  {
    TrimEmptyIffBlank(ExtractText(b.files, d, path, mimeType).value);
  }

  /** The vector write comes first: when it fails (an embedding or the `add` throws),
      no chunk row is written and the collection is left as it was. */
  lemma StoreFailureWritesNothing(b: Backend, embed: string -> Option<Embedding>, d: Decoders, f: IndexFaults,
                                  documentId: string, path: string, mimeType: string)
    requires ExtractText(b.files, d, path, mimeType).Ok? ==>
               StoreDocumentChunks(b.vectors, embed, f.addFails, documentId,
                 DocumentChunks(ExtractText(b.files, d, path, mimeType).value)).Err?
    ensures ProcessDocument(b, embed, d, f, documentId, path, mimeType).b == b
    ensures !ProcessDocument(b, embed, d, f, documentId, path, mimeType).outcome.Indexed?
  {
  }

  /** The rows written for the chunks and the records stored for them agree: row `i`
      is chunk `i` with its length, and the record under the id built from the row's
      document and index holds the same text and metadata. */
  lemma ChunkRowsMatchVectors(vectors: Collection, embed: string -> Option<Embedding>, documentId: string, chunks: seq<string>)
    requires IdsMatchMetadata(vectors)
    requires forall id :: id in vectors ==> vectors[id].metadata.documentId != documentId
    requires StoreDocumentChunks(vectors, embed, false, documentId, chunks).Ok?
    ensures forall i :: 0 <= i < |chunks| ==>
              RowHasVector(ChunkRows(documentId, chunks)[i], StoreDocumentChunks(vectors, embed, false, documentId, chunks).value, i)
  {
    StoredRecords(vectors, embed, documentId, chunks);
    forall i | 0 <= i < |chunks|
      ensures ChunkId(documentId, i) !in vectors
    {
      if ChunkId(documentId, i) in vectors {
        var m := vectors[ChunkId(documentId, i)].metadata;
        ChunkIdInjective(documentId, i, m.documentId, m.chunkIndex);
      }
    }
  }

  /** Indexing a text that is not blank with every write succeeding gives at least one
      chunk, and each row appended agrees with the record stored for it. */
  lemma IndexedRowsMatchVectors(b: Backend, embed: string -> Option<Embedding>, d: Decoders,
                                documentId: string, path: string, mimeType: string)
    requires IdsMatchMetadata(b.vectors)
    requires forall id :: id in b.vectors ==> b.vectors[id].metadata.documentId != documentId
    requires ExtractText(b.files, d, path, mimeType).Ok? && !IsBlank(ExtractText(b.files, d, path, mimeType).value)
    requires forall c :: embed(c).Some?
    ensures var r := ProcessDocument(b, embed, d, IndexFaults(false, false), documentId, path, mimeType);
            && r.outcome.Indexed? && r.outcome.count >= 1
            && |r.b.chunks| == |b.chunks| + r.outcome.count
            && forall i :: |b.chunks| <= i < |r.b.chunks| ==> RowHasVector(r.b.chunks[i], r.b.vectors, i - |b.chunks|)
  {
    var text := ExtractText(b.files, d, path, mimeType).value;
    var chunks := DocumentChunks(text);
    Chunker.KeptChunksExist(text, Chunker.DefaultChunkSize, Chunker.DefaultOverlap);
    ChunkRowsMatchVectors(b.vectors, embed, documentId, chunks);
    var r := ProcessDocument(b, embed, d, IndexFaults(false, false), documentId, path, mimeType);
    assert r.b.chunks == b.chunks + ChunkRows(documentId, chunks);
    assert r.b.vectors == StoreDocumentChunks(b.vectors, embed, false, documentId, chunks).value;
    AppendedRowsHaveVectors(b.chunks, documentId, chunks, r.b.vectors);
  }

  /** Rows that each match their record still do once appended after other rows, at
      their position counted from the end of those rows. */
  lemma AppendedRowsHaveVectors(rows: seq<ChunkRow>, documentId: string, chunks: seq<string>, vectors: Collection)
    requires forall i :: 0 <= i < |chunks| ==> RowHasVector(ChunkRows(documentId, chunks)[i], vectors, i)
    ensures forall k :: |rows| <= k < |rows + ChunkRows(documentId, chunks)| ==>
              RowHasVector((rows + ChunkRows(documentId, chunks))[k], vectors, k - |rows|)
  {
    forall k | |rows| <= k < |rows + ChunkRows(documentId, chunks)|
      ensures RowHasVector((rows + ChunkRows(documentId, chunks))[k], vectors, k - |rows|)
    {
      assert (rows + ChunkRows(documentId, chunks))[k] == ChunkRows(documentId, chunks)[k - |rows|];
    }
  }

  /** The row is chunk number `index` of its document, and the collection holds that
      chunk's text and metadata under the id built from the row's document and index. */
  ghost predicate RowHasVector(row: ChunkRow, vectors: Collection, index: nat) {
    && row.chunkIndex == index
    && row.length == |row.content|
    && ChunkId(row.documentId, row.chunkIndex) in vectors
    && vectors[ChunkId(row.documentId, row.chunkIndex)].document == row.content
    && vectors[ChunkId(row.documentId, row.chunkIndex)].metadata
       == ChunkMetadata(row.documentId, row.chunkIndex, row.length)
  }

  // ----- uploading -----

  /** The part the multipart parser hands over. */
  datatype UploadedFile = UploadedFile(originalName: string, mimeType: string, size: nat, buffer: seq<byte>)

  /** The document fields the upload reply and the listing show. */
  datatype DocumentInfo = DocumentInfo(id: string, filename: string, originalName: string, mimeType: string,
                                       size: nat, uploadedAt: nat)

  datatype UploadReply = UploadReply(success: bool, message: string, document: DocumentInfo)

  /** What `uploadDocument` names and stamps: the new document's id, its stored file name
      (a fresh UUID plus the original extension), the path in the upload directory, and
      the upload time. */
  datatype NewDocument = NewDocument(id: string, filename: string, filePath: string, uploadedAt: nat)

  datatype Uploaded = Uploaded(b: Backend, reply: Result<UploadReply>)

  function Info(doc: Document): DocumentInfo {
    DocumentInfo(doc.id, doc.filename, doc.originalName, doc.mimeType, doc.size, doc.uploadedAt)
  }

  /** `uploadDocument`: write the file to the upload directory, then create the document
      row; either failing is a bad request (a failing row insert leaves the file
      written). The text is indexed afterwards, without being awaited, by
      `ProcessDocument`. */
  function UploadDocument(b: Backend, file: UploadedFile, n: NewDocument, writeFails: bool, createFails: bool): (r: Uploaded)
    ensures r.reply.Err? <==> writeFails || createFails
    ensures r.reply.Err? ==> r.reply.error == BadRequest(UploadFailed) && r.b.documents == b.documents
    ensures r.reply.Ok? ==> && n.id in r.b.documents && n.filePath in r.b.files
                            && r.b.documents[n.id] == Document(n.id, n.filename, file.originalName, file.mimeType,
                                                               file.size, n.uploadedAt, n.filePath)
                            && r.b.files[n.filePath] == file.buffer
                            && r.reply.value == UploadReply(true, UploadedMessage, Info(r.b.documents[n.id]))
    ensures r.b.chunks == b.chunks && r.b.vectors == b.vectors
    ensures writeFails ==> r.b == b
    ensures r.b.documents.Keys == b.documents.Keys + (if r.reply.Ok? then {n.id} else {})
    ensures forall other :: other != n.id && other in b.documents ==>
              other in r.b.documents && r.b.documents[other] == b.documents[other]
    ensures r.b.files.Keys == b.files.Keys + (if writeFails then {} else {n.filePath})
    ensures forall p :: p != n.filePath && p in b.files ==> p in r.b.files && r.b.files[p] == b.files[p]
  {
    if writeFails then Uploaded(b, Err(BadRequest(UploadFailed)))
    else
      var b1 := b.(files := b.files[n.filePath := file.buffer]);
      if createFails then Uploaded(b1, Err(BadRequest(UploadFailed)))
      else
        var doc := Document(n.id, n.filename, file.originalName, file.mimeType, file.size, n.uploadedAt, n.filePath);
        Uploaded(b1.(documents := b1.documents[n.id := doc]), Ok(UploadReply(true, UploadedMessage, Info(doc))))
  }

  /** After a successful upload the indexing reads back exactly the uploaded bytes. */
  lemma UploadThenExtract(b: Backend, file: UploadedFile, n: NewDocument, d: Decoders)
    requires UploadDocument(b, file, n, false, false).reply.Ok?
    ensures ExtractText(UploadDocument(b, file, n, false, false).b.files, d, n.filePath, file.mimeType)
            == ExtractText(map[n.filePath := file.buffer], d, n.filePath, file.mimeType)
  {
  }

  // ----- reading -----

  /** The rows of one document, in table order. */
  function RowsOf(rows: seq<ChunkRow>, documentId: string): seq<ChunkRow>
  {
    if |rows| == 0 then []
    else (if rows[0].documentId == documentId then [rows[0]] else []) + RowsOf(rows[1..], documentId)
  }

  /** The rows of every other document, in table order. */
  function RowsNotOf(rows: seq<ChunkRow>, documentId: string): seq<ChunkRow>
  {
    if |rows| == 0 then []
    else (if rows[0].documentId != documentId then [rows[0]] else []) + RowsNotOf(rows[1..], documentId)
  }

  /** Splitting the table by document sorts every row to exactly one side, and loses
      none and invents none. */
  lemma {:induction false} RowsSplit(rows: seq<ChunkRow>, documentId: string)
    ensures forall x :: x in RowsOf(rows, documentId) <==> x in rows && x.documentId == documentId
    ensures forall x :: x in RowsNotOf(rows, documentId) <==> x in rows && x.documentId != documentId
    ensures |RowsOf(rows, documentId)| + |RowsNotOf(rows, documentId)| == |rows|
    decreases |rows|
  {
    if |rows| > 0 {
      RowsSplit(rows[1..], documentId);
      assert rows == [rows[0]] + rows[1..];
    }
  }

  /** Adding rows of one document adds to its count and to no other's. */
  lemma {:induction false} RowsOfAppend(a: seq<ChunkRow>, c: seq<ChunkRow>, documentId: string)
    ensures RowsOf(a + c, documentId) == RowsOf(a, documentId) + RowsOf(c, documentId)
  {
    if |a| == 0 {
      assert a + c == c;
    } else {
      var head := if a[0].documentId == documentId then [a[0]] else [];
      assert (a + c)[0] == a[0];
      assert (a + c)[1..] == a[1..] + c;
      RowsOfAppend(a[1..], c, documentId);
      calc {
        RowsOf(a + c, documentId);
        head + RowsOf(a[1..] + c, documentId);
        head + (RowsOf(a[1..], documentId) + RowsOf(c, documentId));
        (head + RowsOf(a[1..], documentId)) + RowsOf(c, documentId);
      }
    }
  }

  /** Rows that all belong to one document are all of that document's rows and none of
      any other's. */
  lemma {:induction false} RowsOfOneDocument(documentId: string, other: string, rows: seq<ChunkRow>)
    requires forall i :: 0 <= i < |rows| ==> rows[i].documentId == documentId
    ensures RowsOf(rows, other) == if other == documentId then rows else []
    decreases |rows|
  {
    if |rows| > 0 {
      RowsOfOneDocument(documentId, other, rows[1..]);
    }
  }

  /** `findOne`: the document with its chunk rows, or not found. */
  datatype DocumentWithChunks = DocumentWithChunks(document: Document, chunks: seq<ChunkRow>)

  function FindOne(b: Backend, id: string): (r: Result<DocumentWithChunks>)
    ensures r.Err? <==> id !in b.documents
    ensures r.Err? ==> r.error == NotFound(NotFoundMessage(id))
    ensures r.Ok? ==> r.value.document == b.documents[id]
                      && forall x :: x in r.value.chunks <==> x in b.chunks && x.documentId == id
  {
    RowsSplit(b.chunks, id);
    if id in b.documents then Ok(DocumentWithChunks(b.documents[id], RowsOf(b.chunks, id)))
    else Err(NotFound(NotFoundMessage(id)))
  }

  /** One entry of `findAll`: the document's fields and how many chunk rows it has. */
  datatype DocumentSummary = DocumentSummary(info: DocumentInfo, chunkCount: nat)

  function Summarize(b: Backend, doc: Document): DocumentSummary {
    DocumentSummary(Info(doc), |RowsOf(b.chunks, doc.id)|)
  }

  /** `findAll`: every document once, in the order the database lists them (newest
      upload first; `listed` is that order), each with its chunk count. */
  function FindAll(b: Backend, listed: seq<string>): (r: seq<DocumentSummary>)
    requires forall i, j :: 0 <= i < j < |listed| ==> listed[i] != listed[j]
    requires forall id :: id in b.documents <==> id in listed
    ensures |r| == |listed|
    ensures forall i :: 0 <= i < |listed| ==>
              r[i] == DocumentSummary(Info(b.documents[listed[i]]), |RowsOf(b.chunks, b.documents[listed[i]].id)|)
  {
    seq(|listed|, i requires 0 <= i < |listed| => Summarize(b, b.documents[listed[i]]))
  }

  /** A document whose five chunk rows are in the table is listed with `chunkCount` 5. */
  lemma FiveChunksListed(b: Backend, doc: Document)
    requires b.documents == map[doc.id := doc]
    requires RowsOf(b.chunks, doc.id) == seq(5, i requires 0 <= i < 5 => ChunkRow(doc.id, "", i, 0))
    ensures FindAll(b, [doc.id]) == [DocumentSummary(Info(doc), 5)]
  {
  }

  /** Appending a document's chunk rows adds one row per chunk to its count and none to
      any other document's. */
  lemma AppendedRowsCounted(rows: seq<ChunkRow>, documentId: string, chunks: seq<string>, other: string)
    ensures |RowsOf(rows + ChunkRows(documentId, chunks), other)|
            == |RowsOf(rows, other)| + (if other == documentId then |chunks| else 0)
  {
    RowsOfAppend(rows, ChunkRows(documentId, chunks), other);
    RowsOfOneDocument(documentId, other, ChunkRows(documentId, chunks));
  }

  /** After indexing a document into `n` chunks, the listing counts `n` more for it, and
      the counts of the other documents do not move. */
  lemma IndexedCountListed(b: Backend, embed: string -> Option<Embedding>, d: Decoders, documentId: string,
                           path: string, mimeType: string, other: string)
    ensures ProcessDocument(b, embed, d, IndexFaults(false, false), documentId, path, mimeType).outcome.Indexed? ==>
              |RowsOf(ProcessDocument(b, embed, d, IndexFaults(false, false), documentId, path, mimeType).b.chunks, other)|
              == |RowsOf(b.chunks, other)|
                 + (if other == documentId
                    then ProcessDocument(b, embed, d, IndexFaults(false, false), documentId, path, mimeType).outcome.count
                    else 0)
  {
    var r := ProcessDocument(b, embed, d, IndexFaults(false, false), documentId, path, mimeType);
    if r.outcome.Indexed? {
      var text := ExtractText(b.files, d, path, mimeType).value;
      AppendedRowsCounted(b.chunks, documentId, DocumentChunks(text), other);
    }
  }

  // ----- deleting -----

  /** Which steps of `remove` throw. */
  datatype RemoveFaults = RemoveFaults(vectorGetFails: bool, vectorDeleteFails: bool, recordDeleteFails: bool, unlinkFails: bool)

  datatype RemoveReply = RemoveReply(success: bool, message: string)

  datatype Removed = Removed(b: Backend, reply: Result<RemoveReply>)

  /** `remove`: look the document up (not found is reported as such); delete its vectors,
      then its row, whose chunk rows go with it; then its file, where a failure is only
      logged. A failing vector or row delete is a bad request, and whatever was deleted
      before it stays deleted. */
  function Remove(b: Backend, id: string, f: RemoveFaults): (r: Removed)
    ensures id !in b.documents ==> r == Removed(b, Err(NotFound(NotFoundMessage(id))))
    ensures r.reply.Err? && id in b.documents ==> r.reply.error == BadRequest(DeleteDocumentFailed)
    ensures r.reply.Ok? ==> && r.reply.value == RemoveReply(true, DeletedMessage)
                            && id !in r.b.documents
                            && (forall x :: x in r.b.chunks <==> x in b.chunks && x.documentId != id)
                            && (forall v :: v in r.b.vectors ==> r.b.vectors[v].metadata.documentId != id)
    ensures forall other :: other != id && other in b.documents ==> other in r.b.documents && r.b.documents[other] == b.documents[other]
    ensures r.reply.Ok? ==> forall v :: v in b.vectors && b.vectors[v].metadata.documentId != id ==>
                              v in r.b.vectors && r.b.vectors[v] == b.vectors[v]
    ensures r.b.documents.Keys <= b.documents.Keys
    ensures id in b.documents ==>
              (r.reply.Err? <==> DeleteDocumentChunks(b.vectors, id, f.vectorGetFails, f.vectorDeleteFails).Err?
                                 || f.recordDeleteFails)
    ensures id in b.documents && f.recordDeleteFails
            && DeleteDocumentChunks(b.vectors, id, f.vectorGetFails, f.vectorDeleteFails).Ok? ==>
              r.b == b.(vectors := DeleteDocumentChunks(b.vectors, id, f.vectorGetFails, f.vectorDeleteFails).value)
    ensures r.b.files.Keys <= b.files.Keys
    ensures id in b.documents ==> forall p :: p in b.files && p != b.documents[id].filePath ==>
                                    p in r.b.files && r.b.files[p] == b.files[p]
  {
    match FindOne(b, id)
    case Err(e) => Removed(b, Err(e))
    case Ok(found) =>
      match DeleteDocumentChunks(b.vectors, id, f.vectorGetFails, f.vectorDeleteFails)
      case Err(_) => Removed(b, Err(BadRequest(DeleteDocumentFailed)))
      case Ok(vectors) =>
        var b1 := b.(vectors := vectors);
        if f.recordDeleteFails then Removed(b1, Err(BadRequest(DeleteDocumentFailed)))
        else
          RowsSplit(b1.chunks, id);
          var b2 := b1.(documents := b1.documents - {id}, chunks := RowsNotOf(b1.chunks, id));
          var b3 := if f.unlinkFails then b2 else b2.(files := b2.files - {found.document.filePath});
          Removed(b3, Ok(RemoveReply(true, DeletedMessage)))
  }

  /** The vector delete comes first: when it fails (the lookup throws, or the delete
      throws with records to delete), the document, its rows and its vectors are all
      still there. */
  lemma RemoveVectorFailureKeepsAll(b: Backend, id: string, f: RemoveFaults)
    requires id in b.documents
    requires DeleteDocumentChunks(b.vectors, id, f.vectorGetFails, f.vectorDeleteFails).Err?
    ensures Remove(b, id, f) == Removed(b, Err(BadRequest(DeleteDocumentFailed)))
  {
  }

  /** A failing file delete does not fail the removal. */
  lemma RemoveToleratesUnlink(b: Backend, id: string, f: RemoveFaults)
    requires id in b.documents && !f.vectorGetFails && !f.vectorDeleteFails && !f.recordDeleteFails
    ensures Remove(b, id, f).reply == Ok(RemoveReply(true, DeletedMessage))
    ensures f.unlinkFails ==> Remove(b, id, f).b.files == b.files
    ensures !f.unlinkFails ==> b.documents[id].filePath !in Remove(b, id, f).b.files
  {
  }

  /** Once a document is removed, no chunk row, no vector and no search result is
      left of it, and no other document's count changes. */
  lemma RemoveLeavesNothing(b: Backend, id: string, f: RemoveFaults, embed: string -> Option<Embedding>,
                            query: (Embedding, nat) -> Option<QueryReply>, question: string, topK: nat, other: string)
    requires IdsMatchMetadata(b.vectors)
    requires Remove(b, id, f).reply.Ok?
    requires QueriesOver(Remove(b, id, f).b.vectors, query)
    ensures |RowsOf(Remove(b, id, f).b.chunks, id)| == 0
    ensures other != id ==> RowsOf(Remove(b, id, f).b.chunks, other) == RowsOf(b.chunks, other)
    ensures SearchSimilarChunks(embed, query, question, topK).Ok? ==>
              forall c :: c in SearchSimilarChunks(embed, query, question, topK).value ==> c.documentId != id
  {
    RowsOfNotOf(b.chunks, id, id);
    RowsOfNotOf(b.chunks, id, other);
    SearchAfterDelete(b.vectors, id, embed, query, question, topK);
  }

  lemma {:induction false} RowsOfNotOf(rows: seq<ChunkRow>, removed: string, other: string)
    ensures RowsOf(RowsNotOf(rows, removed), other) == if other == removed then [] else RowsOf(rows, other)
    decreases |rows|
  {
    if |rows| > 0 {
      RowsOfNotOf(rows[1..], removed, other);
      var head := if rows[0].documentId != removed then [rows[0]] else [];
      RowsOfAppend(head, RowsNotOf(rows[1..], removed), other);
    }
  }
}

=== FILE: text.dfy ===
/** String helpers with JavaScript semantics: `String.prototype.trim`, the decimal
    rendering of a non-negative integer inside a template literal, and
    `Array.prototype.join`.

    Strings are `seq<char>`; a `char` is one Unicode scalar value.
 */
module Text {

  /** The characters `trim()` strips: the ECMAScript WhiteSpace set (TAB, VT, FF, SP,
      NBSP, ZWNBSP and the Unicode space separators) and the LineTerminator set
      (LF, CR, LS, PS). */
  predicate IsWhitespace(c: char) {
    || c == '\t' || c == '\U{000B}' || c == '\U{000C}' || c == ' '
    || c == '\U{00A0}' || c == '\U{FEFF}'
    || c == '\U{1680}' || ('\U{2000}' <= c <= '\U{200A}')
    || c == '\U{202F}' || c == '\U{205F}' || c == '\U{3000}'
    || c == '\n' || c == '\r' || c == '\U{2028}' || c == '\U{2029}'
  }

  /** Every character is whitespace (the empty string included). */
  predicate IsBlank(s: string) {
    forall i :: 0 <= i < |s| ==> IsWhitespace(s[i])
  }

  /** Strips leading whitespace: the result is a suffix of `s` that does not start with whitespace. */
  function TrimStart(s: string): string
  {
    if |s| == 0 || !IsWhitespace(s[0]) then s else TrimStart(s[1..])
  }

  lemma {:induction false} TrimStartSpec(s: string)
    ensures var r := TrimStart(s);
            && |r| <= |s| && r == s[|s| - |r|..]
            && (forall i :: 0 <= i < |s| - |r| ==> IsWhitespace(s[i]))
            && (|r| > 0 ==> !IsWhitespace(r[0]))
    decreases |s|
  {
    if |s| > 0 && IsWhitespace(s[0]) {
      TrimStartSpec(s[1..]);
    }
  }

  /** Strips trailing whitespace: the result is a prefix of `s` that does not end with whitespace. */
  function TrimEnd(s: string): string
  {
    if |s| == 0 || !IsWhitespace(s[|s| - 1]) then s else TrimEnd(s[..|s| - 1])
  }

  lemma {:induction false} TrimEndSpec(s: string)
    ensures var r := TrimEnd(s);
            && |r| <= |s| && r == s[..|r|]
            && (forall i :: |r| <= i < |s| ==> IsWhitespace(s[i]))
            && (|r| > 0 ==> !IsWhitespace(r[|r| - 1]))
    decreases |s|
  {
    if |s| > 0 && IsWhitespace(s[|s| - 1]) {
      TrimEndSpec(s[..|s| - 1]);
    }
  }

  /** How many whitespace characters `s` starts with. */
  function LeadingWhitespace(s: string): (n: nat)
    ensures n <= |s|
    ensures forall i :: 0 <= i < n ==> IsWhitespace(s[i])
    ensures n < |s| ==> !IsWhitespace(s[n])
  {
    TrimStartSpec(s);
    |s| - |TrimStart(s)|
  }

  /** JavaScript's `s.trim()`: the part of `s` between its leading and its trailing
      whitespace, which ends with a character that is not whitespace (and starts with one,
      by `LeadingWhitespace`). */
  function Trim(s: string): (r: string)
    ensures LeadingWhitespace(s) + |r| <= |s|
    ensures r == s[LeadingWhitespace(s)..LeadingWhitespace(s) + |r|]
    ensures forall i :: LeadingWhitespace(s) + |r| <= i < |s| ==> IsWhitespace(s[i])
    ensures |r| > 0 ==> !IsWhitespace(r[|r| - 1])
  {
    var t := TrimStart(s);
    TrimStartSpec(s);
    TrimEndSpec(t);
    TrimEnd(t)
  }

  /** `s.trim().length > 0` (equivalently `s.trim()` is truthy) exactly when `s` has a
      character that is not whitespace. */
  lemma {:induction false} TrimEmptyIffBlank(s: string)
    ensures |Trim(s)| == 0 <==> IsBlank(s)
  {
    var t := TrimStart(s);
    TrimStartSpec(s);
    TrimEndSpec(t);
    if |Trim(s)| == 0 {
      assert |t| == 0;
    } else {
      var r := Trim(s);
      assert r[0] == t[0] == s[|s| - |t|];
      assert !IsWhitespace(s[|s| - |t|]);
    }
  }

  // ----- decimal rendering of naturals -----

  predicate IsDigit(c: char) { '0' <= c <= '9' }

  predicate AllDigits(s: string) {
    forall i :: 0 <= i < |s| ==> IsDigit(s[i])
  }

  function DigitChar(d: nat): (c: char)
    requires d < 10
    ensures IsDigit(c)
  {
    (48 + d) as char
  }

  function DigitValue(c: char): (d: nat)
    requires IsDigit(c)
    ensures d < 10
  {
    (c as int) - 48
  }

  /** `${n}` for a non-negative integer `n`: its decimal digits, no sign, no leading zero. */
  function NatToString(n: nat): (s: string)
    ensures 0 < |s|
    ensures AllDigits(s)
    decreases n
  {
    if n < 10 then [DigitChar(n)] else NatToString(n / 10) + [DigitChar(n % 10)]
  }

  /** The value of a string of decimal digits. */
  function ParseDigits(s: string): nat
    requires AllDigits(s)
  {
    if |s| == 0 then 0 else 10 * ParseDigits(s[..|s| - 1]) + DigitValue(s[|s| - 1])
  }

  /** Reading back a rendered natural gives the natural. */
  lemma {:induction false} ParseNatToString(n: nat)
    ensures ParseDigits(NatToString(n)) == n
    decreases n
  {
    var s := NatToString(n);
    if n >= 10 {
      ParseNatToString(n / 10);
      assert s[..|s| - 1] == NatToString(n / 10);
    }
  }

  /** Different naturals render as different strings. */
  lemma NatToStringInjective(a: nat, b: nat)
    ensures NatToString(a) == NatToString(b) ==> a == b
  {
    ParseNatToString(a);
    ParseNatToString(b);
  }

  // ----- Array.prototype.join -----

  /** `items.join(sep)`: the items in order with `sep` between neighbours. */
  function Join(items: seq<string>, sep: string): string
  {
    if |items| == 0 then ""
    else if |items| == 1 then items[0]
    else items[0] + sep + Join(items[1..], sep)
  }

  /** Where item `i` starts inside `Join(items, sep)`. */
  function JoinOffset(items: seq<string>, sep: string, i: nat): nat
    requires i <= |items|
  {
    if i == 0 then 0 else |items[0]| + |sep| + JoinOffset(items[1..], sep, i - 1)
  }

  /** Item `i` appears, unchanged, at `JoinOffset(items, sep, i)` of the joined string. */
  lemma {:induction false} JoinItemAt(items: seq<string>, sep: string, i: nat)
    requires i < |items|
    ensures JoinOffset(items, sep, i) + |items[i]| <= |Join(items, sep)|
    ensures Join(items, sep)[JoinOffset(items, sep, i)..JoinOffset(items, sep, i) + |items[i]|] == items[i]
    decreases i
  {
    if i > 0 {
      var head := items[0] + sep;
      var rest := Join(items[1..], sep);
      JoinItemAt(items[1..], sep, i - 1);
      var o := JoinOffset(items[1..], sep, i - 1);
      assert Join(items, sep) == head + rest;
      assert (head + rest)[|head| + o..|head| + o + |items[i]|] == rest[o..o + |items[i]|];
    }
  }

  /** Between item `i` and item `i + 1` stands exactly the separator. */
  lemma {:induction false} JoinSeparatorAt(items: seq<string>, sep: string, i: nat)
    requires i + 1 < |items|
    ensures JoinOffset(items, sep, i) + |items[i]| + |sep| == JoinOffset(items, sep, i + 1)
    ensures JoinOffset(items, sep, i + 1) <= |Join(items, sep)|
    ensures Join(items, sep)[JoinOffset(items, sep, i) + |items[i]|..JoinOffset(items, sep, i + 1)] == sep
    decreases i
  {
    var head := items[0] + sep;
    var rest := Join(items[1..], sep);
    assert Join(items, sep) == head + rest;
    if i == 0 {
      assert (head + rest)[|items[0]|..|head|] == sep;
    } else {
      JoinSeparatorAt(items[1..], sep, i - 1);
      var o := JoinOffset(items[1..], sep, i - 1) + |items[i]|;
      var o' := JoinOffset(items[1..], sep, i);
      assert (head + rest)[|head| + o..|head| + o'] == rest[o..o'];
    }
  }

  /** The joined string is exactly as long as the items plus one separator between each pair. */
  lemma {:induction false} JoinLength(items: seq<string>, sep: string)
    requires |items| > 0
    ensures |Join(items, sep)| == JoinOffset(items, sep, |items| - 1) + |items[|items| - 1]|
    decreases |items|
  {
    if |items| > 1 {
      JoinLength(items[1..], sep);
    }
  }
}

=== FILE: upload.dfy ===
/** The upload endpoint of the documents controller: the multipart file filter, the
    size limit and the missing-file guard in front of `DocumentsService.uploadDocument`.
 */
module Upload {
  import opened Common
  import Documents

  /** The MIME types the filter lets through. */
  const AllowedMimes: seq<string> := [Documents.PdfMime, Documents.PlainMime, Documents.MarkdownMime]

  /** The multipart size limit, in bytes (10 MiB). */
  const MaxFileSize: nat := 10 * 1024 * 1024

  const InvalidFileType := "Invalid file type. Only PDF, TXT, and MD files are allowed."
  const NoFileUploaded := "No file uploaded"

  /** The two arguments the filter passes to its callback: an error, and whether to
      accept the file. */
  datatype FilterVerdict = FilterVerdict(error: Option<Error>, accept: bool)

  /** `fileFilter`: accept exactly the allowed types; reject any other with a bad
      request. */
  function FileFilter(mimeType: string): (v: FilterVerdict)
    ensures v.accept <==> mimeType in AllowedMimes
    ensures v.accept ==> v.error == None
    ensures !v.accept ==> v.error == Some(BadRequest(InvalidFileType))
  {
    if mimeType in AllowedMimes then FilterVerdict(None, true)
    else FilterVerdict(Some(BadRequest(InvalidFileType)), false)
  }

  /** The file the handler receives, after the filter and the size limit: none when the
      request carried no file part; the filter's error for a rejected type; too large
      above the limit (the filter runs first, before the size is known). */
  function ReceiveUpload(part: Option<Documents.UploadedFile>): (r: Result<Documents.UploadedFile>)
    ensures part.None? ==> r == Err(BadRequest(NoFileUploaded))
    ensures r.Ok? <==> part.Some? && part.value.mimeType in AllowedMimes && part.value.size <= MaxFileSize
    ensures r.Ok? ==> r.value == part.value
    ensures part.Some? && part.value.mimeType !in AllowedMimes ==> r == Err(BadRequest(InvalidFileType))
    ensures part.Some? && part.value.mimeType in AllowedMimes && part.value.size > MaxFileSize ==> r == Err(PayloadTooLarge)
  {
    match part
    case None => Err(BadRequest(NoFileUploaded))
    case Some(file) =>
      var v := FileFilter(file.mimeType);
      if !v.accept then Err(v.error.value)
      else if file.size > MaxFileSize then Err(PayloadTooLarge)
      else Ok(file)
  }

  /** `POST /documents/upload`: the guards above, then `uploadDocument`. A request that
      does not pass the guards never reaches the service and changes nothing. */
  function HandleUpload(b: Documents.Backend, part: Option<Documents.UploadedFile>, n: Documents.NewDocument,
                        writeFails: bool, createFails: bool): (r: Documents.Uploaded)
    ensures ReceiveUpload(part).Err? ==> r == Documents.Uploaded(b, Err(ReceiveUpload(part).error))
    ensures r.reply.Ok? ==> part.Some? && part.value.mimeType in AllowedMimes && part.value.size <= MaxFileSize
    ensures ReceiveUpload(part).Ok? ==> r == Documents.UploadDocument(b, part.value, n, writeFails, createFails)
  {
    match ReceiveUpload(part)
    case Err(e) => Documents.Uploaded(b, Err(e))
    case Ok(file) => Documents.UploadDocument(b, file, n, writeFails, createFails)
  }

  /** The filter accepts exactly the types the text extractor has a case for. */
  lemma FilterAgreesWithExtractor(mimeType: string)
    ensures FileFilter(mimeType).accept <==> Documents.Extractable(mimeType)
  {
  }

  /** An upload that gets through never reaches the extractor's unsupported-type branch:
      its text is decoded, and only the PDF parser can still fail. */
  lemma AcceptedUploadIsExtractable(b: Documents.Backend, part: Option<Documents.UploadedFile>, n: Documents.NewDocument,
                                    d: Documents.Decoders)
    requires HandleUpload(b, part, n, false, false).reply.Ok?
    ensures Documents.ExtractText(HandleUpload(b, part, n, false, false).b.files, d, n.filePath, part.value.mimeType)
            != Err(BadRequest(Documents.UnsupportedMessage(part.value.mimeType)))
    ensures part.value.mimeType != Documents.PdfMime ==>
              Documents.ExtractText(HandleUpload(b, part, n, false, false).b.files, d, n.filePath, part.value.mimeType)
              == Ok(d.utf8(part.value.buffer))
  {
    FilterAgreesWithExtractor(part.value.mimeType);
  }
}

=== FILE: vector_store.dfy ===
/** The vector service's use of the Chroma collection `documents`: storing the chunks of
    a document with their embeddings, the similarity search, and deleting a document's
    chunks.

    The collection is a map from record id to record. The embedding model and Chroma's
    nearest-neighbour query are parameters: `embed(text)` is `None` when the OpenAI call
    throws, and `query(embedding, n)` is `None` when the Chroma call throws. A Chroma
    write that can fail (`add`, `get`, `delete`) gets a flag saying whether it throws.
 */
module VectorStore {
  import opened Common
  import opened Text

  type Embedding = seq<real>

  /** The metadata stored with every chunk. */
  datatype ChunkMetadata = ChunkMetadata(documentId: string, chunkIndex: nat, length: nat)

  /** One record of the collection: the chunk's embedding, metadata and text. */
  datatype VectorRecord = VectorRecord(embedding: Embedding, metadata: ChunkMetadata, document: string)

  type Collection = map<string, VectorRecord>

  /** A chunk as the search returns it. */
  datatype DocumentChunk = DocumentChunk(id: string, content: string, chunkIndex: nat, documentId: string, similarity: real)

  const EmbeddingFailed := "Failed to create text embedding"
  const StoreFailed := "Failed to store document in vector database"
  const SearchFailed := "Failed to search in vector database"
  const DeleteFailed := "Failed to delete document from vector database"

  // ----- record ids -----

  /** The id of chunk `index` of a document: `${documentId}_chunk_${index}`. */
  function ChunkId(documentId: string, index: nat): string {
    documentId + "_chunk_" + NatToString(index)
  }

  /** The id reads back: the document id, then `_chunk_`, then the index's digits. */
  lemma ChunkIdParts(documentId: string, index: nat)
    ensures var id, p := ChunkId(documentId, index), |documentId| + |"_chunk_"|;
            && p < |id|
            && id[..|documentId|] == documentId
            && id[|documentId|..p] == "_chunk_"
            && AllDigits(id[p..])
            && ParseDigits(id[p..]) == index
  {
    var id, p := ChunkId(documentId, index), |documentId| + |"_chunk_"|;
    assert id[p..] == NatToString(index);
    ParseNatToString(index);
  }

  /** Different (document, index) pairs get different ids: the digits after the last
      `_` are the index, and what stands before `_chunk_` is the document id. */
  lemma ChunkIdInjective(d1: string, i1: nat, d2: string, i2: nat)
    ensures ChunkId(d1, i1) == ChunkId(d2, i2) ==> d1 == d2 && i1 == i2
  {
    if ChunkId(d1, i1) == ChunkId(d2, i2) {
      var s := ChunkId(d1, i1);
      var p1, p2 := d1 + "_chunk_", d2 + "_chunk_";
      var n1, n2 := NatToString(i1), NatToString(i2);
      assert s == p1 + n1 && s == p2 + n2;
      // The `_` in front of each index's digits is no digit, so it cannot lie among the
      // other index's digits: both indexes have the same number of digits.
      var k1, k2 := |p1| - 1, |p2| - 1;
      assert s[k1] == '_' && s[k2] == '_';
      assert n1 == s[|p1|..] == n2;
      assert p1 == s[..|p1|] == p2;
      assert d1 == p1[..|d1|] && d2 == p2[..|d2|];
      NatToStringInjective(i1, i2);
    }
  }

  /** The ids of the first `n` chunks of a document. */
  function ChunkIds(documentId: string, n: nat): set<string> {
    set i | 0 <= i < n :: ChunkId(documentId, i)
  }

  /** Every record sits under the id its own metadata spells out. Storing through the
      service keeps this true, and the search relies on it to rebuild ids. */
  ghost predicate IdsMatchMetadata(col: Collection) {
    forall id :: id in col ==> id == ChunkId(col[id].metadata.documentId, col[id].metadata.chunkIndex)
  }

  // ----- embeddings -----

  /** `createEmbedding`: the embedding of the text, or the service's error when the
      embedding call throws. */
  function CreateEmbedding(embed: string -> Option<Embedding>, text: string): (r: Result<Embedding>)
    ensures r.Ok? <==> embed(text).Some?
    ensures r.Ok? ==> r.value == embed(text).value
    ensures r.Err? ==> r.error == Plain(EmbeddingFailed)
  {
    match embed(text)
    case Some(e) => Ok(e)
    case None => Err(Plain(EmbeddingFailed))
  }

  /** The embeddings of all chunks in order, or `None` as soon as one call throws. */
  function EmbedAll(embed: string -> Option<Embedding>, chunks: seq<string>): (r: Option<seq<Embedding>>)
    ensures r.Some? <==> forall i :: 0 <= i < |chunks| ==> embed(chunks[i]).Some?
    ensures r.Some? ==> |r.value| == |chunks|
    ensures r.Some? ==> forall i :: 0 <= i < |chunks| ==> r.value[i] == embed(chunks[i]).value
  {
    if |chunks| == 0 then Some([])
    else match CreateEmbedding(embed, chunks[0])
      case Err(_) => None
      case Ok(e) =>
        match EmbedAll(embed, chunks[1..])
        case None => None
        case Some(rest) => Some([e] + rest)
  }

  // ----- storing -----

  /** The record stored for chunk `i`: its embedding, `{documentId, chunkIndex: i,
      length}` and its text. */
  function ChunkRecord(documentId: string, i: nat, chunk: string, e: Embedding): VectorRecord {
    VectorRecord(e, ChunkMetadata(documentId, i, |chunk|), chunk)
  }

  /** The batch handed to `collection.add`, keyed by id. */
  function Batch(documentId: string, chunks: seq<string>, embeddings: seq<Embedding>): (b: Collection)
    requires |embeddings| == |chunks|
    ensures b.Keys == ChunkIds(documentId, |chunks|)
    ensures forall i :: 0 <= i < |chunks| ==> b[ChunkId(documentId, i)] == ChunkRecord(documentId, i, chunks[i], embeddings[i])
  {
    ChunkIdsDistinct(documentId, |chunks|);
    map i | 0 <= i < |chunks| :: ChunkId(documentId, i) := ChunkRecord(documentId, i, chunks[i], embeddings[i])
  }

  lemma ChunkIdsDistinct(documentId: string, n: nat)
    ensures forall i, j :: 0 <= i < n && 0 <= j < n && ChunkId(documentId, i) == ChunkId(documentId, j) ==> i == j
  {
    forall i, j | 0 <= i < n && 0 <= j < n && ChunkId(documentId, i) == ChunkId(documentId, j)
      ensures i == j
    {
      ChunkIdInjective(documentId, i, documentId, j);
    }
  }

  /** Chroma's `add`: the batch's records join the collection; a record whose id is
      already present is left as it is. */
  function Add(col: Collection, batch: Collection): (r: Collection)
    ensures r.Keys == col.Keys + batch.Keys
    ensures forall id :: id in col ==> r[id] == col[id]
    ensures forall id :: id in batch && id !in col ==> r[id] == batch[id]
  {
    map id | id in col.Keys + batch.Keys :: if id in col then col[id] else batch[id]
  }

  /** `storeDocumentChunks`: embed every chunk, then add them all at once. Any failure
      (an embedding or the `add`) is reported as one error, and nothing is stored. */
  function StoreDocumentChunks(col: Collection, embed: string -> Option<Embedding>, addFails: bool,
                               documentId: string, chunks: seq<string>): (r: Result<Collection>)
    ensures r.Err? <==> addFails || exists i :: 0 <= i < |chunks| && embed(chunks[i]).None?
    ensures r.Err? ==> r.error == Plain(StoreFailed)
    ensures r.Ok? ==> r.value.Keys == col.Keys + ChunkIds(documentId, |chunks|)
  {
    match EmbedAll(embed, chunks)
    case None => Err(Plain(StoreFailed))
    case Some(es) =>
      if addFails then Err(Plain(StoreFailed)) else Ok(Add(col, Batch(documentId, chunks, es)))
  }

  /** A successful store leaves the records already present alone and stores chunk `i`
      under its id with its embedding, `{documentId, chunkIndex: i, length}` and text. */
  lemma StoredRecords(col: Collection, embed: string -> Option<Embedding>, documentId: string, chunks: seq<string>)
    requires StoreDocumentChunks(col, embed, false, documentId, chunks).Ok?
    ensures forall id :: id in col ==> StoreDocumentChunks(col, embed, false, documentId, chunks).value[id] == col[id]
    ensures forall i :: 0 <= i < |chunks| && ChunkId(documentId, i) !in col ==>
              StoreDocumentChunks(col, embed, false, documentId, chunks).value[ChunkId(documentId, i)]
              == ChunkRecord(documentId, i, chunks[i], embed(chunks[i]).value)
  {
  }

  /** Storing keeps every record under the id its metadata spells out. */
  lemma StorePreservesIds(col: Collection, embed: string -> Option<Embedding>, addFails: bool,
                          documentId: string, chunks: seq<string>)
    requires IdsMatchMetadata(col)
    ensures StoreDocumentChunks(col, embed, addFails, documentId, chunks).Ok? ==>
              IdsMatchMetadata(StoreDocumentChunks(col, embed, addFails, documentId, chunks).value)
  {
    var r := StoreDocumentChunks(col, embed, addFails, documentId, chunks);
    if r.Ok? {
      StoredRecords(col, embed, documentId, chunks);
      forall id | id in r.value
        ensures id == ChunkId(r.value[id].metadata.documentId, r.value[id].metadata.chunkIndex)
      {
        if id !in col {
          var i :| 0 <= i < |chunks| && id == ChunkId(documentId, i);
        }
      }
    }
  }

  // ----- searching -----

  /** One hit of a Chroma query: the record's id, text and metadata, and its cosine
      distance to the query embedding. */
  datatype Hit = Hit(id: string, document: string, metadata: ChunkMetadata, distance: real)

  /** What `collection.query` answers: no `documents` list at all, or the hits of the
      one query embedding, nearest first. */
  datatype QueryReply = NoDocuments | Hits(hits: seq<Hit>)

  /** A reply Chroma can give for `n` results over `col`: at most `n` distinct records of
      the collection, reported as stored, by non-decreasing cosine distance in [0, 2]. */
  ghost predicate ValidReply(col: Collection, reply: QueryReply, n: nat) {
    reply.Hits? ==>
      && |reply.hits| <= n
      && (forall i :: 0 <= i < |reply.hits| ==>
            && reply.hits[i].id in col
            && col[reply.hits[i].id].document == reply.hits[i].document
            && col[reply.hits[i].id].metadata == reply.hits[i].metadata
            && 0.0 <= reply.hits[i].distance <= 2.0)
      && (forall i, j :: 0 <= i < j < |reply.hits| ==>
            reply.hits[i].distance <= reply.hits[j].distance && reply.hits[i].id != reply.hits[j].id)
  }

  /** The query only ever answers with records of `col`. */
  ghost predicate QueriesOver(col: Collection, query: (Embedding, nat) -> Option<QueryReply>) {
    forall e, n :: query(e, n).Some? ==> ValidReply(col, query(e, n).value, n)
  }

  /** The chunk reported for one hit: the id rebuilt from the metadata, and
      `1 - distance` as the similarity. */
  function ToChunk(h: Hit): DocumentChunk {
    DocumentChunk(ChunkId(h.metadata.documentId, h.metadata.chunkIndex), h.document,
                  h.metadata.chunkIndex, h.metadata.documentId, 1.0 - h.distance)
  }

  /** The chunks reported for the hits: one per hit, in the order of the reply. */
  function MapHits(hits: seq<Hit>): (r: seq<DocumentChunk>)
    ensures |r| == |hits|
    ensures forall i :: 0 <= i < |hits| ==>
              && r[i].id == ChunkId(hits[i].metadata.documentId, hits[i].metadata.chunkIndex)
              && r[i].content == hits[i].document
              && r[i].documentId == hits[i].metadata.documentId
              && r[i].chunkIndex == hits[i].metadata.chunkIndex
              && r[i].similarity == 1.0 - hits[i].distance
  {
    seq(|hits|, i requires 0 <= i < |hits| => ToChunk(hits[i]))
  }

  /** `searchSimilarChunks(query, topK)`: embed the query, ask for the `topK` nearest
      records and report them as chunks. A failing embedding or query is reported as
      the search error. */
  function SearchSimilarChunks(embed: string -> Option<Embedding>, query: (Embedding, nat) -> Option<QueryReply>,
                               text: string, topK: nat): (r: Result<seq<DocumentChunk>>)
    ensures r.Err? <==> embed(text).None? || query(embed(text).value, topK).None?
    ensures r.Err? ==> r.error == Plain(SearchFailed)
    ensures r.Ok? && query(embed(text).value, topK).value.NoDocuments? ==> r.value == []
    ensures r.Ok? && query(embed(text).value, topK).value.Hits? ==>
              r.value == MapHits(query(embed(text).value, topK).value.hits)
  {
    match CreateEmbedding(embed, text)
    case Err(_) => Err(Plain(SearchFailed))
    case Ok(e) =>
      match query(e, topK)
      case None => Err(Plain(SearchFailed))
      case Some(NoDocuments) => Ok([])
      case Some(Hits(hits)) => Ok(MapHits(hits))
  }

  /** What a search over a well-formed collection returns: at most `topK` chunks, each
      the stored record whose id it carries, with its text, document and index, most
      similar first, with similarity in [-1, 1]. */
  ghost predicate FoundIn(col: Collection, found: seq<DocumentChunk>, topK: nat) {
    && |found| <= topK
    && (forall i :: 0 <= i < |found| ==>
          && found[i].id in col
          && col[found[i].id].document == found[i].content
          && col[found[i].id].metadata.documentId == found[i].documentId
          && col[found[i].id].metadata.chunkIndex == found[i].chunkIndex
          && -1.0 <= found[i].similarity <= 1.0)
    && (forall i, j :: 0 <= i < j < |found| ==>
          found[i].similarity >= found[j].similarity && found[i].id != found[j].id)
  }

  /** The ids rebuilt from metadata name the records Chroma found: chunk `i` is hit `i`,
      under the hit's own id, with its text and `1 - distance` as similarity. */
  lemma MapHitsFoundIn(col: Collection, hits: seq<Hit>, topK: nat)
    requires IdsMatchMetadata(col) && ValidReply(col, Hits(hits), topK)
    ensures FoundIn(col, MapHits(hits), topK)
    ensures forall i :: 0 <= i < |hits| ==>
              && MapHits(hits)[i].id == hits[i].id
              && MapHits(hits)[i].content == hits[i].document
              && MapHits(hits)[i].similarity == 1.0 - hits[i].distance
  {
    var r := MapHits(hits);
    forall i | 0 <= i < |r|
      ensures r[i].id == hits[i].id
    {
      assert col[hits[i].id].metadata == hits[i].metadata;
    }
  }

  /** Every chunk a search returns is a record of the collection, under its own id. */
  lemma SearchFindsStoredChunks(col: Collection, embed: string -> Option<Embedding>,
                                query: (Embedding, nat) -> Option<QueryReply>, text: string, topK: nat)
    requires IdsMatchMetadata(col) && QueriesOver(col, query)
    ensures SearchSimilarChunks(embed, query, text, topK).Ok? ==>
              FoundIn(col, SearchSimilarChunks(embed, query, text, topK).value, topK)
  {
    if embed(text).Some? {
      var reply := query(embed(text).value, topK);
      if reply.Some? && reply.value.Hits? {
        MapHitsFoundIn(col, reply.value.hits, topK);
      }
    }
  }

  /** Storing then searching: a chunk the search returns under the id of chunk `i` of
      the stored document is that chunk, with the text that was stored. */
  lemma StoreThenSearch(col: Collection, embed: string -> Option<Embedding>, documentId: string, chunks: seq<string>,
                        query: (Embedding, nat) -> Option<QueryReply>, text: string, topK: nat)
    requires IdsMatchMetadata(col)
    requires StoreDocumentChunks(col, embed, false, documentId, chunks).Ok?
    requires QueriesOver(StoreDocumentChunks(col, embed, false, documentId, chunks).value, query)
    ensures SearchSimilarChunks(embed, query, text, topK).Ok? ==>
              forall c, i :: c in SearchSimilarChunks(embed, query, text, topK).value && 0 <= i < |chunks|
                             && c.id == ChunkId(documentId, i) && c.id !in col ==>
                c.content == chunks[i] && c.chunkIndex == i && c.documentId == documentId
  {
    var stored := StoreDocumentChunks(col, embed, false, documentId, chunks).value;
    StorePreservesIds(col, embed, false, documentId, chunks);
    StoredRecords(col, embed, documentId, chunks);
    SearchFindsStoredChunks(stored, embed, query, text, topK);
  }

  // ----- deleting -----

  /** The ids `collection.get({ where: { documentId } })` returns. */
  function MatchingIds(col: Collection, documentId: string): (ids: set<string>)
    ensures forall id :: id in ids <==> id in col && col[id].metadata.documentId == documentId
  {
    set id | id in col && col[id].metadata.documentId == documentId
  }

  /** `deleteDocumentChunks`: look up the document's records and delete them when there
      are any. A failing `get`, or a failing `delete` when there was something to delete,
      is reported as the delete error. */
  function DeleteDocumentChunks(col: Collection, documentId: string, getFails: bool, deleteFails: bool): (r: Result<Collection>)
    ensures r.Err? <==> getFails || (deleteFails && exists id :: id in col && col[id].metadata.documentId == documentId)
    ensures r.Err? ==> r.error == Plain(DeleteFailed)
    ensures r.Ok? ==> forall id :: id in r.value <==> id in col && col[id].metadata.documentId != documentId
    ensures r.Ok? ==> forall id :: id in r.value ==> r.value[id] == col[id]
  {
    if getFails then Err(Plain(DeleteFailed))
    else
      var ids := MatchingIds(col, documentId);
      if |ids| > 0 then
        if deleteFails then Err(Plain(DeleteFailed)) else Ok(col - ids)
      else
        assert forall id :: id in col ==> col[id].metadata.documentId != documentId;
        Ok(col)
  }

  /** Deleting keeps every remaining record under the id its metadata spells out. */
  lemma DeletePreservesIds(col: Collection, documentId: string, getFails: bool, deleteFails: bool)
    requires IdsMatchMetadata(col)
    ensures DeleteDocumentChunks(col, documentId, getFails, deleteFails).Ok? ==>
              IdsMatchMetadata(DeleteDocumentChunks(col, documentId, getFails, deleteFails).value)
  {
  }

  /** After a document's chunks are deleted, no search returns a chunk of it. */
  lemma SearchAfterDelete(col: Collection, documentId: string, embed: string -> Option<Embedding>,
                          query: (Embedding, nat) -> Option<QueryReply>, text: string, topK: nat)
    requires IdsMatchMetadata(col)
    requires DeleteDocumentChunks(col, documentId, false, false).Ok?
    requires QueriesOver(DeleteDocumentChunks(col, documentId, false, false).value, query)
    ensures SearchSimilarChunks(embed, query, text, topK).Ok? ==>
              forall c :: c in SearchSimilarChunks(embed, query, text, topK).value ==> c.documentId != documentId
  {
    var after := DeleteDocumentChunks(col, documentId, false, false).value;
    DeletePreservesIds(col, documentId, false, false);
    SearchFindsStoredChunks(after, embed, query, text, topK);
  }

  /** Storing a new document's chunks and then deleting that document gives back the
      collection as it was. */
  lemma StoreThenDelete(col: Collection, embed: string -> Option<Embedding>, documentId: string, chunks: seq<string>)
    requires IdsMatchMetadata(col)
    requires forall id :: id in col ==> col[id].metadata.documentId != documentId
    requires StoreDocumentChunks(col, embed, false, documentId, chunks).Ok?
    ensures DeleteDocumentChunks(StoreDocumentChunks(col, embed, false, documentId, chunks).value, documentId, false, false)
            == Ok(col)
  {
    var stored := StoreDocumentChunks(col, embed, false, documentId, chunks).value;
    forall i | 0 <= i < |chunks|
      ensures ChunkId(documentId, i) !in col
    {
      if ChunkId(documentId, i) in col {
        var m := col[ChunkId(documentId, i)].metadata;
        ChunkIdInjective(documentId, i, m.documentId, m.chunkIndex);
      }
    }
    StoredRecords(col, embed, documentId, chunks);
    forall id | id in stored
      ensures stored[id].metadata.documentId == documentId <==> id !in col
    {
      if id !in col {
        var i :| 0 <= i < |chunks| && id == ChunkId(documentId, i);
      }
    }
    var after := DeleteDocumentChunks(stored, documentId, false, false).value;
    assert after.Keys == col.Keys;
    assert forall id :: id in after ==> after[id] == col[id];
    SameMap(after, col);
  }

  /** Two maps with the same keys and the same value under every key are equal. */
  lemma SameMap<K, V>(a: map<K, V>, b: map<K, V>)
    requires a.Keys == b.Keys
    requires forall k :: k in a ==> a[k] == b[k]
    ensures a == b
  {
  }
}
